=== FILE: README.md ===
# Yatube blog core in Dafny

Yatube is a small blogging site. Users write posts, which may sit in a
group and carry a picture. Other users comment on posts and follow
authors, whose posts then fill a personal feed. This project models the
part of the site that decides things:

- the schema: users, groups, posts, comments and follow edges, the
  constraints the database keeps, the display strings, and the on-delete
  rules;
- the post and comment forms: which submitted fields they read and how
  the post text is cleaned;
- the page handlers: each is a pure function from a database state and a
  request to a response and a new database state;
- the pagination of listings.

The model is functional. A `Store` value is the whole database. A handler
returns an `Outcome`: a `Response` (a rendered view, a redirect, a login
redirect, not-found, or a server error) and the store after the request.
The signed-in user is an `Option<User>`, where `None` is an anonymous
visitor. `login_required` becomes the `LoginRedirect` answer for `None`.
The clock reading that `auto_now_add` stores is a parameter `now`.

Posts and comments are kept in the store in their listing order, newest
first: a new row is inserted in its place by date. A listing is then a
filter of the table. Order is part of the constraint `Valid`, which also
holds the uniqueness of ids, usernames, group slugs and follow pairs, and
the foreign keys.

Files, one module each:

- `collections.dfy` (`Collections`): `Option`, `Result`, lookup by key,
  `Filter`, sorted insertion, and the `UniqueBy` and `NewestFirst`
  predicates with their lemmas.
- `models.dfy` (`Models`): records, `Store`, constraints, `__str__`, row
  writes and on-delete rules.
- `forms.dfy` (`Forms`): form binding, the text fields' whitespace
  stripping and NUL check, and `clean_text`.
- `pagination.dfy` (`Pagination`): pages of `Limit` = 10 items.
- `views.dfy` (`Views`): the handlers.
- `properties.dfy` (`Properties`): laws that relate several requests.

## Model

| member | source | states |
|---|---|---|
| Models.PostStr | yatube/posts/models.py:41-42 | A post is displayed as a prefix of its text: the whole text when it has at most 15 characters, otherwise exactly its first 15. |
| Models.CommentStr | yatube/posts/models.py:58-59 | A comment is displayed as a prefix of its text: the whole text when it has at most 20 characters, otherwise exactly its first 20. |
| Models.InsertPost | yatube/posts/models.py:44-45 | Saving a post adds exactly that row to the post table, keeps every other table, and moves the id counter past the new id. |
| Models.InsertComment | yatube/posts/models.py:61-62 | Saving a comment adds exactly that row to the comment table, keeps every other table, and moves the id counter past the new id. |
| Models.UpdatePost | yatube/posts/views.py:101-103 | Saving an edited post replaces the row with its id, in place; every other row is kept at its position. |
| Models.UpdatePostKeepsRows | yatube/posts/views.py:101-103 | Saving an edited post puts the edited row in the table and keeps every row with another id. |
| Models.InsertFollow | yatube/posts/models.py:66-76 | Creating a follow row adds exactly that edge and one row. |
| Models.RemoveFollow | yatube/posts/views.py:152 | Deleting a follow row removes exactly that edge and keeps every other. |
| Models.RemoveFollowUndoesInsert | yatube/posts/models.py:66-81 | Removing a follow row just created, when it was new, gives back the original store. |
| Models.DeleteGroup | yatube/posts/models.py:27-34 | Deleting a group removes its row and sets the group of each of its posts to none; no post is removed or moved, and the posts of other groups are untouched. |
| Models.DeletePost | yatube/posts/models.py:50-55 | Deleting a post removes it and exactly the comments on it. |
| Models.DeleteUser | yatube/core/models.py:13-17 | Deleting a user removes the user, their posts, their comments, the comments on their posts, and every follow edge they are an end of; nothing else. |
| Models.ValidInsertPost | yatube/posts/models.py:44-45 | A new post with the next id, a stored author and a stored or empty group keeps every constraint, including newest-first order, whatever its date. |
| Models.ValidInsertComment | yatube/posts/models.py:61-62 | A new comment with the next id, on a stored post, by a stored user, keeps every constraint, including newest-first order. |
| Models.ValidUpdatePost | yatube/posts/views.py:101-103 | Replacing a stored post by one with the same id, author and date and a stored or empty group keeps every constraint. |
| Models.ValidInsertFollow | yatube/posts/models.py:78-81 | Adding a new edge between stored users keeps the (user, author) pair unique. |
| Models.ValidRemoveFollow | yatube/posts/models.py:78-81 | Removing an edge keeps every constraint. |
| Models.ValidDeleteGroup | yatube/posts/models.py:27-34 | Deleting a group keeps every constraint: no post is left pointing at the deleted group. |
| Models.ValidDeletePost | yatube/posts/models.py:50-55 | Deleting a post keeps every constraint: no comment is left pointing at the deleted post. |
| Models.ValidDeleteUser | yatube/core/models.py:13-17 | Deleting a user keeps every constraint: no post, comment or edge is left pointing at the deleted user. |
| Forms.CleanText | yatube/posts/forms.py:10-14 | Text cleaning fails exactly when the text is empty; accepted text is returned unchanged. |
| Forms.Strip | yatube/posts/forms.py:5-8 | The text fields of both forms strip surrounding whitespace (as Python's `str.strip` does): the result starts and ends with a non-space character, and is empty exactly when the text is all whitespace. |
| Forms.StripRemovesPadding | yatube/posts/forms.py:5-8 | Text with non-space ends, padded with any whitespace on either side, strips back to exactly that text. |
| Forms.StripIsIdempotent | yatube/posts/forms.py:5-8 | Stripping stripped text changes nothing. |
| Forms.StripStartKeepsNonSpace | yatube/posts/forms.py:5-8 | Removing leading whitespace keeps every other character: one is in the result exactly when it is in the text. |
| Forms.StripEndKeepsNonSpace | yatube/posts/forms.py:5-8 | Removing trailing whitespace keeps every other character: one is in the result exactly when it is in the text. |
| Forms.StripKeepsNonSpace | yatube/posts/forms.py:5-8 | Stripping removes only whitespace: any other character is in the stripped text exactly when it is in the text. |
| Forms.PaddedTextIsStripped | yatube/posts/forms.py:5-8 | " hi" followed by a line break is cleaned to "hi". |
| Forms.RequiredText | yatube/posts/forms.py:5-8 | A text field binds exactly when it is present, is text, is not all whitespace and holds no NUL character; it then binds to the text stripped of surrounding whitespace. |
| Forms.GroupChoice | yatube/posts/forms.py:5-8 | An absent or blank group gives none, the id of a stored group gives that group, and exactly the other values are refused. |
| Forms.ImageChoice | yatube/posts/forms.py:5-8 | An uploaded file becomes the image; with no upload (nothing, or a non-file value, which the file field never reads) the image is kept. |
| Forms.BindPostForm | yatube/posts/forms.py:5-14 | A post form is valid exactly when its text is present, not all whitespace and free of NUL, and its group is absent, blank or a stored group; it then holds the stripped text, the chosen group and the image choice. |
| Forms.BindCommentForm | yatube/posts/forms.py:17-20 | A comment form is valid exactly when its text is present, not all whitespace and free of NUL, and its value is the stripped text. |
| Forms.Restrict | yatube/posts/forms.py:5-8 | Restricting a submission keeps exactly the named fields, with their values. |
| Forms.PostFormReadsOnlyItsFields | yatube/posts/forms.py:5-8 | The post form binds a submission exactly as it binds its restriction to text, group and image, so no other field the model represents (author, pub_date) has any effect; the image widget's clear checkbox is not represented (see "## Left out"). |
| Forms.PostFormAgrees | yatube/posts/forms.py:5-8 | Two submissions that agree on text, group and image bind to the same result, whatever else they carry. |
| Forms.PostFormIgnoresAuthor | yatube/posts/forms.py:5-8 | Adding or changing an `author` value in a post submission changes nothing the form binds. |
| Forms.CommentFormReadsOnlyItsFields | yatube/posts/forms.py:17-20 | The comment form binds a submission exactly as it binds its text alone. |
| Pagination.NumPages | yatube/posts/views.py:7-13 | The page count is the least number of 10-item pages holding the listing; an empty listing has one page. |
| Pagination.GetPage | yatube/posts/views.py:7-13 | Page k holds at most 10 items, exactly 10 before the last page and the remainder on the last, and item i of page k is item 10(k-1)+i of the listing. |
| Pagination.ItemOnItsPage | yatube/posts/views.py:10-13 | Item i of a listing is at position i mod 10 of page i div 10 + 1, which exists. |
| Pagination.PagesCoverListing | yatube/posts/views.py:10-13 | All pages read in order give back the whole listing. |
| Pagination.TwelveItems | yatube/posts/tests/test_views.py:246-268 | Twelve items make two pages, of 10 and 2. |
| Collections.UniqueCount | yatube/posts/views.py:25 | A listing with unique keys has as many entries as distinct rows, so a row is never counted twice. |
| Views.UserNamed | yatube/posts/views.py:34 | The user lookup by username finds a stored user with that name, or reports that there is none. |
| Views.UserWithId | yatube/posts/views.py:53 | The user lookup by id finds a stored user with that id, or reports that there is none. |
| Views.GroupWithSlug | yatube/posts/views.py:24 | The group lookup by slug finds a stored group with that slug, or reports that there is none. |
| Views.PostWithId | yatube/posts/views.py:52 | The post lookup by id finds a stored post with that id, or reports that there is none. |
| Views.GroupPostList | yatube/posts/views.py:25 | A group's listing holds exactly the posts of that group, each once when post ids are unique, newest first when the table is. |
| Views.AuthorPostList | yatube/posts/views.py:35-36 | An author's listing holds exactly the author's posts, each once when post ids are unique, newest first when the table is. |
| Views.FeedPostList | yatube/posts/views.py:124-126 | The feed holds exactly the posts whose author the user follows, each once when post ids are unique, newest first when the table is. |
| Views.PostCommentList | yatube/posts/views.py:58-59 | A post's comment list holds exactly the comments on that post, each once when comment ids are unique, newest first when the table is. |
| Views.Index | yatube/posts/views.py:16-20 | The home page lists every post. |
| Views.GroupPosts | yatube/posts/views.py:23-29 | An unknown slug is not found; otherwise the page shows that group and exactly its posts. |
| Views.Profile | yatube/posts/views.py:32-48 | An unknown username is not found; otherwise the page shows exactly the author's posts, and `following` is true exactly when the edge (viewer, author) is stored. |
| Views.PostDetail | yatube/posts/views.py:51-65 | An unknown post is not found; otherwise the page shows the post, its author, the author's posts and exactly the comments on the post. |
| Views.FollowIndex | yatube/posts/views.py:122-129 | Anonymous visitors are sent to log in; otherwise the feed holds exactly the posts of followed authors. |
| Views.PostCreate | yatube/posts/views.py:68-82 | Anonymous visitors are sent to log in; only a valid submission changes the store, by adding one post written by the requester and dated now, then redirects to the requester's profile; every other request shows the form and changes nothing. |
| Views.PostEdit | yatube/posts/views.py:85-107 | Anonymous visitors are sent to log in and an unknown post is not found; no other post changes, nor any post's id, author or date; the store changes only on the author's own submission, which redirects to the post. |
| Views.AddComment | yatube/posts/views.py:110-119 | Anonymous visitors are sent to log in and an unknown post is not found; an existing post always redirects to its page; the store changes only by one comment on that post by the requester. |
| Views.ProfileFollow | yatube/posts/views.py:132-143 | Anonymous visitors are sent to log in and an unknown username is not found; otherwise the answer is a redirect to the profile, no edge is lost, and the only possible change is the new edge (viewer, author) between two different users. |
| Views.ProfileUnfollow | yatube/posts/views.py:146-154 | Anonymous visitors are sent to log in; unknown user or no edge gives not-found and no change; otherwise exactly the edge (viewer, author) is removed and the viewer goes to the profile. |
| Views.ProfileUnfollowAsWritten | yatube/posts/views.py:146-154 | As written, an anonymous visitor is sent to log in, a signed-in request for an unknown username ends in a server error, and for a known one the handler behaves as the corrected one. |
| Properties.FollowIsIdempotent | yatube/posts/views.py:135-137 | A second identical follow request gives the same response and the same store as the first. |
| Properties.FollowingOneselfStoresNothing | yatube/posts/views.py:138-143 | Following oneself redirects to one's own profile and stores nothing. |
| Properties.FollowAddsExactlyThatEdge | yatube/posts/views.py:138-143 | Following a different, not yet followed author adds exactly that edge and changes nothing else. |
| Properties.FollowKeepsNoSelfFollows | yatube/posts/views.py:138-142 | No follow request ever stores a self-edge. |
| Properties.UnfollowUndoesFollow | yatube/posts/tests/test_views.py:178-191 | Unfollowing an author right after the first follow redirects to the profile and restores the store. |
| Properties.FeedAfterUnfollow | yatube/posts/views.py:122-129 | After an unfollow, the feed is the previous feed without the unfollowed author's posts. |
| Properties.FeedEmptyAfterUnfollowingOnlyAuthor | yatube/posts/tests/test_views.py:202-220 | After unfollowing the only author one follows, the feed is empty. |
| Properties.UnfollowUnknownUsernameAsWritten | yatube/posts/views.py:150 | For every store and every unknown username, the handler as written answers with a server error and the corrected one with not-found, neither changing the store. |
| Properties.UnknownUsernameExists | yatube/posts/views.py:150 | Every store has an unknown username (one longer than every stored one), so the server error is reachable from every state. |
| Properties.GroupOfTwelveHasTwoPages | yatube/posts/tests/test_views.py:245-268 | A group holding twelve posts is listed in twelve entries, on two pages of 10 and 2. |
| Properties.AuthorOfTwelveHasTwoPages | yatube/posts/tests/test_views.py:245-268 | An author with twelve posts has a profile listing of twelve entries, on two pages of 10 and 2. |
| Properties.GroupListingsAreDisjoint | yatube/posts/tests/test_views.py:150-155 | A post listed on one group's page is not listed on another group's page. |
| Properties.ListingsAreNewestFirst | yatube/posts/models.py:44-45 | In a valid store the home, group, profile, feed and author listings and a post's comments are all newest first. |
| Properties.CreateAddsOnePostByRequester | yatube/posts/tests/test_forms.py:59-91 | A valid creation adds exactly one new post, written by the requester, keeps every stored post, and redirects to the requester's profile. |
| Properties.CreateFormForSignedIn | yatube/posts/views.py:77-82 | A signed-in visit to the creation page, or a refused submission, shows the empty creation form and saves nothing. |
| Properties.CreateIgnoresClientAuthor | yatube/posts/views.py:70-76 | Whatever `author` value a request carries, creation gives the same response and store. |
| Properties.UsernameCheckIsAuthorCheck | yatube/posts/views.py:91-93 | Since ids and usernames are unique, the edit handler's username comparison holds exactly when the requester wrote the post. |
| Properties.EditByOtherUserChangesNothing | yatube/posts/views.py:91-93 | Anyone but the author is redirected to the post and the store is unchanged. |
| Properties.EditFormForAuthor | yatube/posts/views.py:94-107 | In a valid store, the author's visit to the edit page, or the author's refused submission, shows the edit form and saves nothing. |
| Properties.EditByAuthor | yatube/posts/tests/test_forms.py:93-114 | The author's valid edit redirects to the post, keeps the post count, stores the post with the new text, group and image, and keeps every other post. |
| Properties.DeletedGroupPostsStayListed | yatube/posts/models.py:27-34 | After a group is deleted its page is not found, the home page lists as many posts as before, and each of the group's posts is listed with no group. |
| Properties.DeletedPostLeavesNoComments | yatube/posts/models.py:50-55 | After a post is deleted its page is not found, no comment on it is left, and every other post's comments are unchanged. |
| Properties.ValidAfterPostCreate | yatube/posts/views.py:68-82 | Creating a post keeps every database constraint. |
| Properties.ValidAfterPostEdit | yatube/posts/views.py:85-107 | Editing a post keeps every database constraint. |
| Properties.ValidAfterAddComment | yatube/posts/views.py:110-119 | Commenting keeps every database constraint. |
| Properties.ValidAfterFollow | yatube/posts/views.py:132-143 | Following keeps every database constraint, among them the unique (user, author) pair. |
| Properties.ValidAfterUnfollow | yatube/posts/views.py:146-154 | Unfollowing keeps every database constraint. |
| Properties.PostDetailRenders | yatube/posts/views.py:51-65 | In a valid store every stored post's page renders, showing that post. |
| Properties.AddCommentSaves | yatube/posts/views.py:110-119 | A signed-in user's valid comment on a stored post saves exactly that comment, on that post, by the requester, dated now, and redirects to the post. |
| Properties.AddCommentInvalidSavesNothing | yatube/posts/views.py:113-119 | A plain visit or an invalid comment on a stored post redirects to the post and saves nothing. |
| Properties.HelloScenario | yatube/posts/tests/test_forms.py:136-153 | A posts a text; the post's page shows that text, author A and no comments; after B comments, the page shows exactly that one comment. |
| Properties.TrimmedTextIsKept | yatube/posts/forms.py:10-14 | Text with non-space ends is cleaned to itself. |
| Properties.PlainTextBinds | yatube/posts/forms.py:5-20 | A submission holding only trimmed text binds: the post form to that text with no group and the image unchanged, the comment form to that text. |

## Left out

- HTTP, templates and URL routing. Responses are values; the login page's `next` parameter is not modelled.
- The home-page cache. It is time-based, lives in the framework's cache backend, and its decorator is not part of this model.
- Page-number parsing and clamping by the paginator. Only valid page numbers are modelled (`Pagination.GetPage` requires one). Handlers return the whole ordered listing; `Pagination` cuts it.
- Image upload and media storage. An image is an opaque storage path.
- Models.GroupStr: a group is displayed as its title; the function is a one-field projection and carries no contract.
- Forms.ImageChoice: any upload is accepted. The image field's check that the file is a picture, and its "clear" checkbox, are not modelled.
- Forms.GroupChoice: the group arrives as an id or as blank text. Parsing the submitted string into an id is library behaviour; any other value is refused.
- Validation messages. An invalid creation re-renders a fresh, empty form, and an invalid edit re-renders the form filled from the post with the submission's valid fields (group, image) applied, unsaved; neither shows the errors. The model returns the form view and an unchanged store.
- Concurrency. Requests are modelled one at a time. Two simultaneous follow requests can both pass the existence check; the second insert then violates the unique (user, author) constraint and fails with an error instead of doing nothing.
- The call to `add_comment` inside `post_detail`. On a GET request it saves nothing, so `Views.PostDetail` models GET requests only and has no viewer.
- Order between rows with the same `pub_date`. The database leaves it open; the model keeps a new row before older rows of equal date.
- Group ordering by primary key. No modelled page lists groups.
- The admin configuration, and migrations as history. The current schema uses `SET_NULL` for a post's group.
- The user table beyond id and username. Users are created by the authentication framework; the store is given its users.
- Follow requests use GET and are not CSRF-protected. The model does not distinguish request methods for follow and unfollow.

## Findings

| source | as written | input that shows it | evidently intended | confidence | as-written member | corrected member |
|---|---|---|---|---|---|---|
| yatube/posts/views.py:150 | The author of the edge to delete is looked up with a plain `User.objects.get`, which raises for an unknown username. | A signed-in user requests the unfollow page of a username that does not exist: the request ends in a server error. | Not-found, as for every other missing object in the handler. | not executed | Views.ProfileUnfollowAsWritten, Properties.UnfollowUnknownUsernameAsWritten | Views.ProfileUnfollow |

=== FILE: collections.dfy ===
/** Generic sequence helpers shared by the model: optional values, lookup by
    key, order-preserving filtering, and insertion into a newest-first
    sequence. Keys and dates are passed as named functions. */
module Collections {

  datatype Option<+T> = None | Some(value: T)

  datatype Result<+T, +E> = Success(value: T) | Failure(error: E)

  /** No two elements of `xs` share a key: the model of a database
      uniqueness constraint over a table. */
  ghost predicate UniqueBy<T, K>(xs: seq<T>, key: T -> K) {
    forall i, j :: 0 <= i < j < |xs| ==> key(xs[i]) != key(xs[j])
  }

  /** `xs` is ordered newest first by `date` (a descending ordering). */
  ghost predicate NewestFirst<T>(xs: seq<T>, date: T -> int) {
    forall i, j :: 0 <= i < j < |xs| ==> date(xs[i]) >= date(xs[j])
  }

  /** The first element of `xs` whose key is `k`, if any. */
  function FindByKey<T, K(==)>(xs: seq<T>, key: T -> K, k: K): (r: Option<T>)
    ensures r.Some? ==> r.value in xs && key(r.value) == k
    ensures r.None? ==> forall x :: x in xs ==> key(x) != k
  {
    if xs == [] then None
    else if key(xs[0]) == k then Some(xs[0])
    else FindByKey(xs[1..], key, k)
  }

  /** Under a uniqueness constraint, lookup by key finds THE element with
      that key. */
  lemma {:induction false} FindByKeyUnique<T, K>(xs: seq<T>, key: T -> K, x: T)
    requires UniqueBy(xs, key)
    requires x in xs
    ensures FindByKey(xs, key, key(x)) == Some(x)
  {
    if xs[0] != x {
      assert x in xs[1..];
      var i :| 0 <= i < |xs| && xs[i] == x;
      assert key(xs[0]) != key(xs[i]);
      assert UniqueBy(xs[1..], key) by {
        forall i, j | 0 <= i < j < |xs[1..]|
          ensures key(xs[1..][i]) != key(xs[1..][j])
        {
          assert xs[1..][i] == xs[i + 1] && xs[1..][j] == xs[j + 1];
        }
      }
      FindByKeyUnique(xs[1..], key, x);
    }
  }

  /** Under a uniqueness constraint, an element is the only one with its key. */
  lemma KeyDeterminesElement<T, K>(xs: seq<T>, key: T -> K, x: T)
    ensures UniqueBy(xs, key) && x in xs ==>
              forall i :: 0 <= i < |xs| && key(xs[i]) == key(x) ==> xs[i] == x
  {
    if UniqueBy(xs, key) && x in xs {
      var j :| 0 <= j < |xs| && xs[j] == x;
      assert forall i :: 0 <= i < |xs| && key(xs[i]) == key(xs[j]) ==> i == j;
    }
  }

  /** The elements of `xs` that satisfy `keep`. The body keeps them in
      their original order; `FilterKeepsOrder` states the part of that the
      listings rely on, that a newest-first sequence stays newest first. */
  function Filter<T>(xs: seq<T>, keep: T -> bool): (r: seq<T>)
    ensures |r| <= |xs|
    ensures forall x :: x in r ==> x in xs && keep(x)
    ensures forall x :: x in xs && keep(x) ==> x in r
  {
    if xs == [] then []
    else
      var rest := Filter(xs[1..], keep);
      if keep(xs[0]) then [xs[0]] + rest else rest
  }

  lemma {:induction false} FilterAll<T>(xs: seq<T>, keep: T -> bool)
    requires forall x :: x in xs ==> keep(x)
    ensures Filter(xs, keep) == xs
  {
    if xs != [] {
      assert forall x :: x in xs[1..] ==> x in xs;
      FilterAll(xs[1..], keep);
    }
  }

  lemma {:induction false} FilterNone<T>(xs: seq<T>, keep: T -> bool)
    requires forall x :: x in xs ==> !keep(x)
    ensures Filter(xs, keep) == []
  {
    if xs != [] {
      assert forall x :: x in xs[1..] ==> x in xs;
      FilterNone(xs[1..], keep);
    }
  }

  /** Filtering keeps a uniqueness constraint. */
  lemma {:induction false} FilterUnique<T, K>(xs: seq<T>, keep: T -> bool, key: T -> K)
    requires UniqueBy(xs, key)
    ensures UniqueBy(Filter(xs, keep), key)
  {
    if xs != [] {
      UniqueTail(xs, key);
      FilterUnique(xs[1..], keep, key);
      var rest := Filter(xs[1..], keep);
      if keep(xs[0]) {
        forall y | y in rest ensures key(xs[0]) != key(y) {
          var j :| 0 <= j < |xs[1..]| && xs[1..][j] == y;
          assert xs[j + 1] == y;
        }
        ConsUnique(xs[0], rest, key);
      }
    }
  }

  /** Filtering keeps a newest-first ordering. */
  lemma {:induction false} FilterNewestFirst<T>(xs: seq<T>, keep: T -> bool, date: T -> int)
    requires NewestFirst(xs, date)
    ensures NewestFirst(Filter(xs, keep), date)
  {
    if xs != [] {
      NewestFirstTail(xs, date);
      FilterNewestFirst(xs[1..], keep, date);
      var rest := Filter(xs[1..], keep);
      if keep(xs[0]) {
        forall y | y in rest ensures date(xs[0]) >= date(y) {
          var j :| 0 <= j < |xs[1..]| && xs[1..][j] == y;
          assert xs[j + 1] == y;
        }
        ConsNewestFirst(xs[0], rest, date);
      }
    }
  }

  /** A sequence with unique keys holds as many distinct elements as it
      has positions. */
  lemma {:induction false} UniqueCount<T, K>(xs: seq<T>, key: T -> K)
    requires UniqueBy(xs, key)
    ensures |set x | x in xs| == |xs|
  {
    if xs != [] {
      UniqueTail(xs, key);
      UniqueCount(xs[1..], key);
      forall j | 0 <= j < |xs[1..]|
        ensures xs[1..][j] != xs[0]
      {
        assert xs[1..][j] == xs[j + 1];
        assert key(xs[0]) != key(xs[j + 1]);
      }
      assert (set x | x in xs) == {xs[0]} + (set x | x in xs[1..]);
    }
  }

  /** A filter of a sequence with unique keys lists each element once. */
  lemma FilterKeepsUnique<T, K>(xs: seq<T>, keep: T -> bool, key: T -> K)
    ensures UniqueBy(xs, key) ==> UniqueBy(Filter(xs, keep), key)
  {
    if UniqueBy(xs, key) {
      FilterUnique(xs, keep, key);
    }
  }

  /** The ordering form of `FilterNewestFirst` that a function body can use. */
  lemma FilterKeepsOrder<T>(xs: seq<T>, keep: T -> bool, date: T -> int)
    ensures NewestFirst(xs, date) ==> NewestFirst(Filter(xs, keep), date)
  {
    if NewestFirst(xs, date) {
      FilterNewestFirst(xs, keep, date);
    }
  }

  /** Filtering a sequence with one more element at its end. */
  lemma {:induction false} FilterSnoc<T>(xs: seq<T>, x: T, keep: T -> bool)
    ensures Filter(xs + [x], keep) == Filter(xs, keep) + (if keep(x) then [x] else [])
  {
    if xs == [] {
      assert xs + [x] == [x];
      assert [x][1..] == [];
    } else {
      assert (xs + [x])[0] == xs[0];
      assert (xs + [x])[1..] == xs[1..] + [x];
      FilterSnoc(xs[1..], x, keep);
    }
  }

  lemma UniqueTail<T, K>(xs: seq<T>, key: T -> K)
    requires xs != [] && UniqueBy(xs, key)
    ensures UniqueBy(xs[1..], key)
  {
    forall i, j | 0 <= i < j < |xs[1..]|
      ensures key(xs[1..][i]) != key(xs[1..][j])
    {
      assert xs[1..][i] == xs[i + 1] && xs[1..][j] == xs[j + 1];
    }
  }

  lemma NewestFirstTail<T>(xs: seq<T>, date: T -> int)
    requires xs != [] && NewestFirst(xs, date)
    ensures NewestFirst(xs[1..], date)
  {
    forall i, j | 0 <= i < j < |xs[1..]|
      ensures date(xs[1..][i]) >= date(xs[1..][j])
    {
      assert xs[1..][i] == xs[i + 1] && xs[1..][j] == xs[j + 1];
    }
  }

  lemma ConsUnique<T, K>(x: T, xs: seq<T>, key: T -> K)
    requires UniqueBy(xs, key)
    requires forall y :: y in xs ==> key(x) != key(y)
    ensures UniqueBy([x] + xs, key)
  {
    var r := [x] + xs;
    forall i, j | 0 <= i < j < |r| ensures key(r[i]) != key(r[j]) {
      assert r[j] == xs[j - 1];
      if i > 0 {
        assert r[i] == xs[i - 1];
      }
    }
  }

  lemma ConsNewestFirst<T>(x: T, xs: seq<T>, date: T -> int)
    requires NewestFirst(xs, date)
    requires forall y :: y in xs ==> date(x) >= date(y)
    ensures NewestFirst([x] + xs, date)
  {
    var r := [x] + xs;
    forall i, j | 0 <= i < j < |r| ensures date(r[i]) >= date(r[j]) {
      assert r[j] == xs[j - 1];
      if i > 0 {
        assert r[i] == xs[i - 1];
      }
    }
  }

  /** Inserts `x` into a sequence before the first element that is not
      strictly newer than it; in a newest-first sequence that is the place
      its date belongs. */
  function InsertNewest<T>(xs: seq<T>, x: T, date: T -> int): (r: seq<T>)
    ensures multiset(r) == multiset(xs) + multiset{x}
  {
    if xs == [] || date(x) >= date(xs[0]) then [x] + xs
    else
      assert xs == [xs[0]] + xs[1..];
      [xs[0]] + InsertNewest(xs[1..], x, date)
  }

  /** Insertion keeps a newest-first ordering. */
  lemma {:induction false} InsertNewestKeepsOrder<T>(xs: seq<T>, x: T, date: T -> int)
    requires NewestFirst(xs, date)
    ensures NewestFirst(InsertNewest(xs, x, date), date)
  {
    if xs == [] || date(x) >= date(xs[0]) {
      forall y | y in xs ensures date(x) >= date(y) {
        var j :| 0 <= j < |xs| && xs[j] == y;
        if j > 0 { assert date(xs[0]) >= date(xs[j]); }
      }
      ConsNewestFirst(x, xs, date);
    } else {
      NewestFirstTail(xs, date);
      InsertNewestKeepsOrder(xs[1..], x, date);
      var rest := InsertNewest(xs[1..], x, date);
      forall y | y in rest ensures date(xs[0]) >= date(y) {
        assert y in multiset(rest);
        if y != x {
          assert y in multiset(xs[1..]);
          var j :| 0 <= j < |xs[1..]| && xs[1..][j] == y;
          assert xs[j + 1] == y;
        }
      }
      ConsNewestFirst(xs[0], rest, date);
    }
  }

  /** Inserting an element with a fresh key keeps a uniqueness constraint. */
  lemma {:induction false} InsertNewestUnique<T, K>(xs: seq<T>, x: T, date: T -> int, key: T -> K)
    requires UniqueBy(xs, key)
    requires forall y :: y in xs ==> key(y) != key(x)
    ensures UniqueBy(InsertNewest(xs, x, date), key)
  {
    if xs == [] || date(x) >= date(xs[0]) {
      ConsUnique(x, xs, key);
    } else {
      UniqueTail(xs, key);
      assert forall y :: y in xs[1..] ==> y in xs;
      InsertNewestUnique(xs[1..], x, date, key);
      var rest := InsertNewest(xs[1..], x, date);
      forall y | y in rest ensures key(xs[0]) != key(y) {
        assert y in multiset(rest);
        if y != x {
          assert y in multiset(xs[1..]);
          var j :| 0 <= j < |xs[1..]| && xs[1..][j] == y;
          assert xs[j + 1] == y;
        }
      }
      ConsUnique(xs[0], rest, key);
    }
  }

  /** The first `n` elements of `s`, or all of `s` when it is shorter
      (the meaning of Python's `s[:n]`). */
  function Truncate<T>(s: seq<T>, n: nat): (r: seq<T>)
    ensures |r| == if |s| <= n then |s| else n
    ensures r <= s
  {
    if |s| <= n then s else s[..n]
  }
}

=== FILE: forms.dfy ===
/** The two model forms: which submitted fields they bind, and how a
    submission is cleaned into the values saved on a post or a comment. */
module Forms {
  import opened Collections
  import opened Models

  /** One submitted value: text from the body, the id picked in a choice
      list, or an uploaded file. */
  datatype FormValue = TextValue(text: string) | IdValue(id: nat) | FileValue(image: ImageRef)

  /** A submission, by field name; it may carry any names at all. */
  type FormData = map<string, FormValue>

  /** The fields the post form exposes; author and publication date are
      not among them. */
  const PostFormFields: set<string> := {"text", "group", "image"}

  /** The only field the comment form exposes. */
  const CommentFormFields: set<string> := {"text"}

  /** A validation error, on the named field. */
  datatype FormError = Invalid(field: string)

  /** What a valid post form submission sets on the post. */
  datatype PostInput = PostInput(text: string, group: Option<GroupId>, image: Option<ImageRef>)

  // ---------------------------------------------------------------------
  // The text field: surrounding whitespace is stripped

  /** The characters Python's `str.isspace` accepts, which `str.strip`
      removes. */
  predicate IsSpace(c: char) {
    || ('\t' <= c <= '\r') || ('\U{001C}' <= c <= '\U{001F}') || c == ' '
    || c == '\U{0085}' || c == '\U{00A0}' || c == '\U{1680}'
    || ('\U{2000}' <= c <= '\U{200A}') || c == '\U{2028}' || c == '\U{2029}'
    || c == '\U{202F}' || c == '\U{205F}' || c == '\U{3000}'
  }

  /** Text made of whitespace only (the empty text among it). */
  predicate Blank(s: string) {
    forall i :: 0 <= i < |s| ==> IsSpace(s[i])
  }

  /** `s` without its leading whitespace. */
  function StripStart(s: string): (r: string)
    ensures |r| <= |s|
    ensures r == s[|s| - |r|..]
    ensures Blank(s[..|s| - |r|])
    ensures r != [] ==> !IsSpace(r[0])
  {
    if s != [] && IsSpace(s[0]) then StripStart(s[1..]) else s
  }

  /** `s` without its trailing whitespace. */
  function StripEnd(s: string): (r: string)
    ensures |r| <= |s|
    ensures r == s[..|r|]
    ensures Blank(s[|r|..])
    ensures r != [] ==> !IsSpace(r[|r| - 1])
  {
    if s != [] && IsSpace(s[|s| - 1]) then
      var r := StripEnd(s[..|s| - 1]);
      assert s[|r|..] == s[..|s| - 1][|r|..] + [s[|s| - 1]];
      r
    else s
  }

  /** `s` without its surrounding whitespace, as the form's text field
      cleans it. */
  function Strip(s: string): (r: string)
    ensures r != [] ==> !IsSpace(r[0]) && !IsSpace(r[|r| - 1])
    ensures r == [] <==> Blank(s)
    ensures |r| <= |s|
  {
    StripEnd(StripStart(s))
  }

  lemma {:induction false} StripStartSpaces(pre: string, x: string)
    requires Blank(pre)
    ensures StripStart(pre + x) == StripStart(x)
  {
    if pre != [] {
      assert (pre + x)[0] == pre[0];
      assert (pre + x)[1..] == pre[1..] + x;
      StripStartSpaces(pre[1..], x);
    } else {
      assert pre + x == x;
    }
  }

  lemma {:induction false} StripEndSpaces(x: string, post: string)
    requires Blank(post)
    ensures StripEnd(x + post) == StripEnd(x)
  {
    if post != [] {
      var n := |x + post|;
      assert (x + post)[n - 1] == post[|post| - 1];
      assert (x + post)[..n - 1] == x + post[..|post| - 1];
      StripEndSpaces(x, post[..|post| - 1]);
    } else {
      assert x + post == x;
    }
  }

  /** Stripping undoes padding: text with no whitespace at its ends,
      surrounded by any whitespace, strips back to that text. */
  lemma {:induction false} StripRemovesPadding(pre: string, t: string, post: string)
    requires Blank(pre) && Blank(post)
    requires t != [] ==> !IsSpace(t[0]) && !IsSpace(t[|t| - 1])
    ensures Strip(pre + t + post) == t
  {
    var rest := t + post;
    assert pre + t + post == pre + rest;
    StripStartSpaces(pre, rest);
    if t == [] {
      assert rest == post + [];
      StripStartSpaces(post, []);
      assert StripStart(pre + t + post) == [];
    } else {
      assert rest[0] == t[0];
      assert StripStart(rest) == rest;
      StripEndSpaces(t, post);
      assert StripEnd(t) == t;
    }
  }

  /** Stripping twice strips no more than stripping once. */
  lemma StripIsIdempotent(s: string)
    ensures Strip(Strip(s)) == Strip(s)
  {
    StripRemovesPadding([], Strip(s), []);
    assert [] + Strip(s) + [] == Strip(s);
  }

  /** Whitespace holds no character that is not whitespace. */
  lemma NonSpaceNotInBlank(b: string, c: char)
    requires Blank(b) && !IsSpace(c)
    ensures c !in b
  {
  }

  /** A character is in a concatenation exactly when it is in one part. */
  lemma InConcat(a: string, b: string, c: char)
    ensures c in a + b <==> c in a || c in b
  {
  }

  lemma {:induction false} StripStartKeepsNonSpace(s: string, c: char)
    requires !IsSpace(c)
    ensures c in StripStart(s) <==> c in s
  {
    var t := StripStart(s);
    var pre := s[..|s| - |t|];
    assert s == pre + t;
    InConcat(pre, t, c);
    NonSpaceNotInBlank(pre, c);
  }

  lemma {:induction false} StripEndKeepsNonSpace(s: string, c: char)
    requires !IsSpace(c)
    ensures c in StripEnd(s) <==> c in s
  {
    var r := StripEnd(s);
    var post := s[|r|..];
    assert s == r + post;
    InConcat(r, post, c);
    NonSpaceNotInBlank(post, c);
  }

  /** A character that is not whitespace is in the stripped text exactly
      when it is in the text. */
  lemma {:induction false} StripKeepsNonSpace(s: string, c: char)
    requires !IsSpace(c)
    ensures c in Strip(s) <==> c in s
  {
    StripStartKeepsNonSpace(s, c);
    StripEndKeepsNonSpace(StripStart(s), c);
  }

  // ---------------------------------------------------------------------
  // Cleaning the fields

  /** The post form's text check: empty text is refused, and any other text
      is accepted exactly as it comes. */
  function CleanText(text: string): (r: Result<string, FormError>)
    ensures r.Failure? <==> text == ""
    ensures r.Success? ==> r.value == text
  {
    if text == "" then Failure(Invalid("text")) else Success(text)
  }

  /** A required text field: the submitted text stripped of surrounding
      whitespace. Missing, non-text or blank input is refused, and so is
      text holding a NUL character. */
  function RequiredText(data: FormData, field: string): (r: Result<string, FormError>)
    ensures r.Success? <==>
              && field in data && data[field].TextValue?
              && !Blank(data[field].text) && '\0' !in data[field].text
    ensures r.Success? ==> r.value == Strip(data[field].text) && r.value != ""
  {
    if field !in data || !data[field].TextValue? then Failure(Invalid(field))
    else
      var text := Strip(data[field].text);
      StripKeepsNonSpace(data[field].text, '\0');
      if text == "" || '\0' in text then Failure(Invalid(field)) else Success(text)
  }

  /** The optional group choice: absent or blank means no group, an id of a
      stored group is that group, and anything else is refused. */
  function GroupChoice(data: FormData, groups: set<GroupId>): (r: Result<Option<GroupId>, FormError>)
    ensures ("group" !in data || data["group"] == TextValue("")) ==> r == Success(None)
    ensures "group" in data && data["group"].IdValue? && data["group"].id in groups ==>
              r == Success(Some(data["group"].id))
    ensures r.Failure? <==>
              && "group" in data && data["group"] != TextValue("")
              && !(data["group"].IdValue? && data["group"].id in groups)
  {
    if "group" !in data || data["group"] == TextValue("") then Success(None)
    else if data["group"].IdValue? && data["group"].id in groups then Success(Some(data["group"].id))
    else Failure(Invalid("group"))
  }

  /** The image: an uploaded file replaces it; with no upload under
      `image` (nothing, or a non-file value, which the file field never
      reads) it stays `initial`, the image already on the post or none for
      a new post. The image field never refuses a submission. */
  function ImageChoice(data: FormData, initial: Option<ImageRef>): (r: Option<ImageRef>)
    ensures "image" in data && data["image"].FileValue? ==> r == Some(data["image"].image)
    ensures !("image" in data && data["image"].FileValue?) ==> r == initial
  {
    if "image" in data && data["image"].FileValue? then Some(data["image"].image) else initial
  }

  /** Binds and cleans a post form submission. */
  function BindPostForm(data: FormData, groups: set<GroupId>, initial: Option<ImageRef>): (r: Result<PostInput, FormError>)
    ensures r.Success? <==>
              && "text" in data && data["text"].TextValue?
              && !Blank(data["text"].text) && '\0' !in data["text"].text
              && ("group" !in data || data["group"] == TextValue("")
                  || (data["group"].IdValue? && data["group"].id in groups))
    ensures r.Success? ==> r.value.text == Strip(data["text"].text) && r.value.text != ""
    ensures r.Success? ==>
              (r.value.group.Some? <==> "group" in data && data["group"].IdValue?)
    ensures r.Success? && r.value.group.Some? ==>
              data["group"] == IdValue(r.value.group.value) && r.value.group.value in groups
    ensures r.Success? ==> r.value.image == ImageChoice(data, initial)
  {
    match RequiredText(data, "text")
    case Failure(e) => Failure(e)
    case Success(raw) =>
      // The field's own required check has already refused blank text, so
      // this check, which `clean_text` adds, never fails here.
      match CleanText(raw)
      case Failure(e) => Failure(e)
      case Success(text) =>
        match GroupChoice(data, groups)
        case Failure(e) => Failure(e)
        case Success(group) => Success(PostInput(text, group, ImageChoice(data, initial)))
  }

  /** Binds and cleans a comment form submission: its text only. */
  function BindCommentForm(data: FormData): (r: Result<string, FormError>)
    ensures r.Success? <==>
              && "text" in data && data["text"].TextValue?
              && !Blank(data["text"].text) && '\0' !in data["text"].text
    ensures r.Success? ==> r.value == Strip(data["text"].text) && r.value != ""
  {
    RequiredText(data, "text")
  }

  /** The submission restricted to the named fields. */
  function Restrict(data: FormData, fields: set<string>): (r: FormData)
    ensures forall k :: k in r <==> k in data && k in fields
    ensures forall k :: k in r ==> r[k] == data[k]
  {
    map k | k in data && k in fields :: data[k]
  }

  /** Two submissions carry the same value, or none, under `field`. */
  predicate SameEntry(d1: FormData, d2: FormData, field: string) {
    (field in d1 <==> field in d2) && (field in d1 ==> d1[field] == d2[field])
  }

  /** The post form binds two submissions alike when they agree on text,
      group and image. */
  lemma {:induction false} PostFormAgrees(d1: FormData, d2: FormData, groups: set<GroupId>, initial: Option<ImageRef>)
    requires SameEntry(d1, d2, "text") && SameEntry(d1, d2, "group") && SameEntry(d1, d2, "image")
    ensures BindPostForm(d1, groups, initial) == BindPostForm(d2, groups, initial)
  {
    assert RequiredText(d1, "text") == RequiredText(d2, "text");
    assert GroupChoice(d1, groups) == GroupChoice(d2, groups);
    assert ImageChoice(d1, initial) == ImageChoice(d2, initial);
  }

  /** The post form reads nothing outside its three fields: a submission
      binds exactly as its restriction to them does, so an `author` or
      `pub_date` value in the request has no effect. */
  lemma {:induction false} PostFormReadsOnlyItsFields(data: FormData, groups: set<GroupId>, initial: Option<ImageRef>)
    ensures BindPostForm(data, groups, initial) == BindPostForm(Restrict(data, PostFormFields), groups, initial)
  {
    var r := Restrict(data, PostFormFields);
    assert "text" in r <==> "text" in data;
    assert "group" in r <==> "group" in data;
    assert "image" in r <==> "image" in data;
    PostFormAgrees(data, r, groups, initial);
  }

  /** In particular an `author` value in a post submission changes
      nothing the form binds. */
  lemma {:induction false} PostFormIgnoresAuthor(data: FormData, claimed: FormValue, groups: set<GroupId>, initial: Option<ImageRef>)
    ensures BindPostForm(data["author" := claimed], groups, initial) == BindPostForm(data, groups, initial)
  {
    PostFormAgrees(data["author" := claimed], data, groups, initial);
  }

  /** The comment form reads nothing but its text. */
  lemma CommentFormReadsOnlyItsFields(data: FormData)
    ensures BindCommentForm(data) == BindCommentForm(Restrict(data, CommentFormFields))
  {
    var r := Restrict(data, CommentFormFields);
    assert "text" in r <==> "text" in data;
  }

  /** Padded text is cleaned to the text without its padding: " hi" and
      a line break become "hi". */
  lemma {:induction false} PaddedTextIsStripped()
    ensures Strip(" hi\n") == "hi"
  {
    assert IsSpace(' ') && IsSpace('\n');
    assert Blank(" ") && Blank("\n");
    assert !IsSpace('h') && !IsSpace('i');
    StripRemovesPadding(" ", "hi", "\n");
    assert " " + "hi" + "\n" == " hi\n";
  }
}

=== FILE: models.dfy ===
/** The blog's schema: users, groups, posts, comments and follow edges, the
    database store that holds them, the constraints the database keeps, the
    display strings of the records, and the on-delete rules. */
module Models {
  import opened Collections

  type UserId = nat
  type GroupId = nat
  type PostId = nat
  type CommentId = nat

  /** An uploaded picture, by its storage path; its content is opaque here. */
  type ImageRef = string

  /** An account of the external authentication framework. */
  datatype User = User(id: UserId, username: string)

  datatype Group = Group(id: GroupId, title: string, slug: string, description: string)

  /** `pubDate` and `author` come from the shared abstract base model; the
      date is a clock reading, set once when the row is saved. */
  datatype Post = Post(
    id: PostId,
    text: string,
    pubDate: int,
    author: UserId,
    group: Option<GroupId>,
    image: Option<ImageRef>)

  datatype Comment = Comment(
    id: CommentId,
    post: PostId,
    text: string,
    pubDate: int,
    author: UserId)

  /** A follow edge: `user` receives the posts of `author` in their feed. */
  datatype Follow = Follow(user: UserId, author: UserId)

  /** The database. Posts and comments are kept in their listing order,
      newest first; `nextPostId` and `nextCommentId` are the auto-increment
      counters of the two tables. */
  datatype Store = Store(
    users: seq<User>,
    groups: seq<Group>,
    posts: seq<Post>,
    comments: seq<Comment>,
    follows: seq<Follow>,
    nextPostId: PostId,
    nextCommentId: CommentId)

  // Column projections, passed to the generic helpers as keys and dates.
  function UserKey(u: User): UserId { u.id }
  function UserName(u: User): string { u.username }
  function GroupKey(g: Group): GroupId { g.id }
  function GroupSlug(g: Group): string { g.slug }
  function PostKey(p: Post): PostId { p.id }
  function PostDate(p: Post): int { p.pubDate }
  function CommentKey(c: Comment): CommentId { c.id }
  function CommentDate(c: Comment): int { c.pubDate }
  function FollowPair(f: Follow): Follow { f }

  function UserIds(s: Store): set<UserId> { set u | u in s.users :: u.id }
  function GroupIds(s: Store): set<GroupId> { set g | g in s.groups :: g.id }
  function PostIds(s: Store): set<PostId> { set p | p in s.posts :: p.id }

  // ---------------------------------------------------------------------
  // Constraints the database keeps

  /** User ids and usernames are unique (the authentication framework). */
  ghost predicate UsersWellFormed(s: Store) {
    UniqueBy(s.users, UserKey) && UniqueBy(s.users, UserName)
  }

  /** Group ids are unique and so are slugs (`unique=True`). */
  ghost predicate GroupsWellFormed(s: Store) {
    UniqueBy(s.groups, GroupKey) && UniqueBy(s.groups, GroupSlug)
  }

  /** Post ids are unique and below the counter, every post has a stored
      author and an existing or empty group, and the table is newest first. */
  ghost predicate PostsWellFormed(s: Store) {
    && UniqueBy(s.posts, PostKey)
    && NewestFirst(s.posts, PostDate)
    && (forall p :: p in s.posts ==> p.id < s.nextPostId)
    && (forall p :: p in s.posts ==> p.author in UserIds(s))
    && (forall p :: p in s.posts && p.group.Some? ==> p.group.value in GroupIds(s))
  }

  /** Comment ids are unique and below the counter, every comment belongs to
      a stored post and user, and the table is newest first. */
  ghost predicate CommentsWellFormed(s: Store) {
    && UniqueBy(s.comments, CommentKey)
    && NewestFirst(s.comments, CommentDate)
    && (forall c :: c in s.comments ==> c.id < s.nextCommentId)
    && (forall c :: c in s.comments ==> c.post in PostIds(s))
    && (forall c :: c in s.comments ==> c.author in UserIds(s))
  }

  /** The (user, author) pair is unique, and both ends are stored users. */
  ghost predicate FollowsWellFormed(s: Store) {
    && UniqueBy(s.follows, FollowPair)
    && (forall f :: f in s.follows ==> f.user in UserIds(s) && f.author in UserIds(s))
  }

  ghost predicate Valid(s: Store) {
    && UsersWellFormed(s)
    && GroupsWellFormed(s)
    && PostsWellFormed(s)
    && CommentsWellFormed(s)
    && FollowsWellFormed(s)
  }

  // ---------------------------------------------------------------------
  // Display strings

  const PostStrLength: nat := 15
  const CommentStrLength: nat := 20

  /** A group is shown by its title. */
  function GroupStr(g: Group): string {
    g.title
  }

  /** A post is shown by the first 15 characters of its text. */
  function PostStr(p: Post): (r: string)
    ensures r <= p.text
    ensures |r| <= PostStrLength
    ensures |p.text| <= PostStrLength ==> r == p.text
    ensures |p.text| > PostStrLength ==> |r| == PostStrLength
  {
    Truncate(p.text, PostStrLength)
  }

  /** A comment is shown by the first 20 characters of its text. */
  function CommentStr(c: Comment): (r: string)
    ensures r <= c.text
    ensures |r| <= CommentStrLength
    ensures |c.text| <= CommentStrLength ==> r == c.text
    ensures |c.text| > CommentStrLength ==> |r| == CommentStrLength
  {
    Truncate(c.text, CommentStrLength)
  }

  // ---------------------------------------------------------------------
  // Row-level writes

  /** Saves a new post; it takes its place in the newest-first order. */
  function InsertPost(s: Store, p: Post): (t: Store)
    ensures multiset(t.posts) == multiset(s.posts) + multiset{p}
    ensures t == s.(posts := t.posts, nextPostId := t.nextPostId)
    ensures t.nextPostId >= s.nextPostId && t.nextPostId > p.id
  {
    s.(posts := InsertNewest(s.posts, p, PostDate),
       nextPostId := if p.id < s.nextPostId then s.nextPostId else p.id + 1)
  }

  /** Saves a new comment; it takes its place in the newest-first order. */
  function InsertComment(s: Store, c: Comment): (t: Store)
    ensures multiset(t.comments) == multiset(s.comments) + multiset{c}
    ensures t == s.(comments := t.comments, nextCommentId := t.nextCommentId)
    ensures t.nextCommentId >= s.nextCommentId && t.nextCommentId > c.id
  {
    s.(comments := InsertNewest(s.comments, c, CommentDate),
       nextCommentId := if c.id < s.nextCommentId then s.nextCommentId else c.id + 1)
  }

  /** Saves an edited post over the stored row with the same id; no other
      row moves or changes. */
  function UpdatePost(s: Store, p: Post): (t: Store)
    ensures t == s.(posts := t.posts)
    ensures |t.posts| == |s.posts|
    ensures forall i :: 0 <= i < |s.posts| && s.posts[i].id != p.id ==> t.posts[i] == s.posts[i]
    ensures forall i :: 0 <= i < |s.posts| && s.posts[i].id == p.id ==> t.posts[i] == p
  {
    s.(posts := seq(|s.posts|, i requires 0 <= i < |s.posts| =>
                      if s.posts[i].id == p.id then p else s.posts[i]))
  }

  /** Updating a stored row leaves the edited row in the table, and every
      row with another id. */
  lemma {:induction false} UpdatePostKeepsRows(s: Store, prev: Post, p: Post)
    requires prev in s.posts && prev.id == p.id
    ensures p in UpdatePost(s, p).posts
    ensures forall q :: q in s.posts && q.id != p.id ==> q in UpdatePost(s, p).posts
  {
    var t := UpdatePost(s, p);
    var i :| 0 <= i < |s.posts| && s.posts[i] == prev;
    assert t.posts[i] == p;
    forall q | q in s.posts && q.id != p.id ensures q in t.posts {
      var j :| 0 <= j < |s.posts| && s.posts[j] == q;
      assert t.posts[j] == q;
    }
  }

  /** Creates a follow row for the pair. */
  function InsertFollow(s: Store, f: Follow): (t: Store)
    ensures t == s.(follows := t.follows)
    ensures forall e :: e in t.follows <==> e in s.follows || e == f
    ensures |t.follows| == |s.follows| + 1
  {
    s.(follows := s.follows + [f])
  }

  /** Deletes the follow row(s) of the pair. */
  function RemoveFollow(s: Store, f: Follow): (t: Store)
    ensures t == s.(follows := t.follows)
    ensures forall e :: e in t.follows <==> e in s.follows && e != f
  {
    s.(follows := Filter(s.follows, (e: Follow) => e != f))
  }

  /** Removing a follow row just created restores the store. */
  lemma {:induction false} RemoveFollowUndoesInsert(s: Store, f: Follow)
    requires f !in s.follows
    ensures RemoveFollow(InsertFollow(s, f), f) == s
  {
    var keep := (e: Follow) => e != f;
    FilterSnoc(s.follows, f, keep);
    FilterAll(s.follows, keep);
  }

  // ---------------------------------------------------------------------
  // On-delete rules

  /** Deleting a group removes its row and clears the group of each of its
      posts (`on_delete=SET_NULL`); no post is removed or reordered. */
  function DeleteGroup(s: Store, gid: GroupId): (t: Store)
    ensures t == s.(groups := t.groups, posts := t.posts)
    ensures forall g :: g in t.groups <==> g in s.groups && g.id != gid
    ensures |t.posts| == |s.posts|
    ensures forall i :: 0 <= i < |t.posts| ==> t.posts[i].group != Some(gid)
    ensures forall i :: 0 <= i < |t.posts| ==>
              t.posts[i].(group := None) == s.posts[i].(group := None)
    ensures forall i :: 0 <= i < |t.posts| && s.posts[i].group != Some(gid) ==>
              t.posts[i] == s.posts[i]
  {
    s.(groups := Filter(s.groups, (g: Group) => g.id != gid),
       posts := seq(|s.posts|, i requires 0 <= i < |s.posts| =>
                  if s.posts[i].group == Some(gid) then s.posts[i].(group := None)
                  else s.posts[i]))
  }

  /** Deleting a post removes it and, by cascade, exactly the comments on it. */
  function DeletePost(s: Store, pid: PostId): (t: Store)
    ensures t == s.(posts := t.posts, comments := t.comments)
    ensures forall p :: p in t.posts <==> p in s.posts && p.id != pid
    ensures forall c :: c in t.comments <==> c in s.comments && c.post != pid
  {
    s.(posts := Filter(s.posts, (p: Post) => p.id != pid),
       comments := Filter(s.comments, (c: Comment) => c.post != pid))
  }

  /** The ids of the posts written by `uid`. */
  function PostsBy(s: Store, uid: UserId): set<PostId> {
    set p | p in s.posts && p.author == uid :: p.id
  }

  /** Deleting a user cascades to their posts, to their comments, to the
      comments on their posts, and to every follow edge they are an end of. */
  function DeleteUser(s: Store, uid: UserId): (t: Store)
    ensures t.groups == s.groups
    ensures t.nextPostId == s.nextPostId && t.nextCommentId == s.nextCommentId
    ensures forall u :: u in t.users <==> u in s.users && u.id != uid
    ensures forall p :: p in t.posts <==> p in s.posts && p.author != uid
    ensures forall c :: c in t.comments <==>
              c in s.comments && c.author != uid && c.post !in PostsBy(s, uid)
    ensures forall f :: f in t.follows <==>
              f in s.follows && f.user != uid && f.author != uid
  {
    var gone := PostsBy(s, uid);
    s.(users := Filter(s.users, (u: User) => u.id != uid),
       posts := Filter(s.posts, (p: Post) => p.author != uid),
       comments := Filter(s.comments, (c: Comment) => c.author != uid && c.post !in gone),
       follows := Filter(s.follows, (f: Follow) => f.user != uid && f.author != uid))
  }

  // ---------------------------------------------------------------------
  // Every write keeps the database constraints

  lemma ValidInsertPost(s: Store, p: Post)
    requires Valid(s)
    requires p.id == s.nextPostId
    requires p.author in UserIds(s)
    requires p.group.Some? ==> p.group.value in GroupIds(s)
    ensures Valid(InsertPost(s, p))
  {
    var t := InsertPost(s, p);
    forall q | q in s.posts ensures PostKey(q) != PostKey(p) { }
    InsertNewestUnique(s.posts, p, PostDate, PostKey);
    InsertNewestKeepsOrder(s.posts, p, PostDate);
    forall q | q in t.posts ensures q in s.posts || q == p {
      assert q in multiset(t.posts);
    }
    assert PostIds(s) <= PostIds(t) by {
      forall q | q in s.posts ensures q in t.posts {
        assert q in multiset(s.posts);
        assert q in multiset(t.posts);
      }
    }
  }

  lemma ValidInsertComment(s: Store, c: Comment)
    requires Valid(s)
    requires c.id == s.nextCommentId
    requires c.post in PostIds(s) && c.author in UserIds(s)
    ensures Valid(InsertComment(s, c))
  {
    var t := InsertComment(s, c);
    forall d | d in s.comments ensures CommentKey(d) != CommentKey(c) { }
    InsertNewestUnique(s.comments, c, CommentDate, CommentKey);
    InsertNewestKeepsOrder(s.comments, c, CommentDate);
    forall d | d in t.comments ensures d in s.comments || d == c {
      assert d in multiset(t.comments);
    }
  }

  lemma ValidUpdatePost(s: Store, prev: Post, p: Post)
    requires Valid(s)
    requires prev in s.posts
    requires p.id == prev.id && p.pubDate == prev.pubDate && p.author == prev.author
    requires p.group.Some? ==> p.group.value in GroupIds(s)
    ensures Valid(UpdatePost(s, p))
  {
    var t := UpdatePost(s, p);
    assert forall i :: 0 <= i < |t.posts| ==>
      t.posts[i].id == s.posts[i].id && t.posts[i].pubDate == s.posts[i].pubDate
      && t.posts[i].author == s.posts[i].author;
    assert PostIds(t) == PostIds(s) by {
      forall id | id in PostIds(s) ensures id in PostIds(t) {
        var q :| q in s.posts && q.id == id;
        var i :| 0 <= i < |s.posts| && s.posts[i] == q;
        assert t.posts[i].id == id;
      }
    }
    forall q | q in t.posts && q.group.Some? ensures q.group.value in GroupIds(s) {
      var i :| 0 <= i < |t.posts| && t.posts[i] == q;
      if s.posts[i].id != p.id {
        assert s.posts[i] == q;
      }
    }
  }

  lemma ValidInsertFollow(s: Store, f: Follow)
    requires Valid(s)
    requires f !in s.follows
    requires f.user in UserIds(s) && f.author in UserIds(s)
    ensures Valid(InsertFollow(s, f))
  {
    var t := InsertFollow(s, f);
    forall i, j | 0 <= i < j < |t.follows| ensures FollowPair(t.follows[i]) != FollowPair(t.follows[j]) {
      if j == |s.follows| {
        assert t.follows[i] == s.follows[i];
      } else {
        assert t.follows[i] == s.follows[i] && t.follows[j] == s.follows[j];
      }
    }
  }

  lemma ValidRemoveFollow(s: Store, f: Follow)
    requires Valid(s)
    ensures Valid(RemoveFollow(s, f))
  {
    FilterUnique(s.follows, (e: Follow) => e != f, FollowPair);
  }

  lemma ValidDeleteGroup(s: Store, gid: GroupId)
    requires Valid(s)
    ensures Valid(DeleteGroup(s, gid))
  {
    var t := DeleteGroup(s, gid);
    FilterUnique(s.groups, (g: Group) => g.id != gid, GroupKey);
    FilterUnique(s.groups, (g: Group) => g.id != gid, GroupSlug);
    forall i | 0 <= i < |t.posts| ensures t.posts[i].id == s.posts[i].id
      && t.posts[i].pubDate == s.posts[i].pubDate && t.posts[i].author == s.posts[i].author
    {
      assert t.posts[i].(group := None) == s.posts[i].(group := None);
    }
    assert PostIds(t) == PostIds(s) by {
      forall id | id in PostIds(s) ensures id in PostIds(t) {
        var q :| q in s.posts && q.id == id;
        var i :| 0 <= i < |s.posts| && s.posts[i] == q;
        assert t.posts[i].id == id;
      }
    }
    forall q | q in t.posts && q.group.Some? ensures q.group.value in GroupIds(t) {
      var i :| 0 <= i < |t.posts| && t.posts[i] == q;
      assert s.posts[i] == q;
      var g :| g in s.groups && g.id == q.group.value;
      assert g in t.groups;
    }
  }

  lemma ValidDeletePost(s: Store, pid: PostId)
    requires Valid(s)
    ensures Valid(DeletePost(s, pid))
  {
    var t := DeletePost(s, pid);
    FilterUnique(s.posts, (p: Post) => p.id != pid, PostKey);
    FilterNewestFirst(s.posts, (p: Post) => p.id != pid, PostDate);
    FilterUnique(s.comments, (c: Comment) => c.post != pid, CommentKey);
    FilterNewestFirst(s.comments, (c: Comment) => c.post != pid, CommentDate);
    forall c | c in t.comments ensures c.post in PostIds(t) {
      var q :| q in s.posts && q.id == c.post;
      assert q in t.posts;
    }
  }

  lemma ValidDeleteUser(s: Store, uid: UserId)
    requires Valid(s)
    ensures Valid(DeleteUser(s, uid))
  {
    var t := DeleteUser(s, uid);
    DeleteUserKeepsUsers(s, uid);
    DeleteUserKeepsPosts(s, uid);
    DeleteUserKeepsComments(s, uid);
    FilterUnique(s.follows, (f: Follow) => f.user != uid && f.author != uid, FollowPair);
  }

  lemma DeleteUserKeepsUsers(s: Store, uid: UserId)
    requires UsersWellFormed(s)
    ensures UsersWellFormed(DeleteUser(s, uid))
    ensures forall id :: id in UserIds(s) && id != uid ==> id in UserIds(DeleteUser(s, uid))
  {
    var t := DeleteUser(s, uid);
    FilterUnique(s.users, (u: User) => u.id != uid, UserKey);
    FilterUnique(s.users, (u: User) => u.id != uid, UserName);
    forall id | id in UserIds(s) && id != uid ensures id in UserIds(t) {
      var u :| u in s.users && u.id == id;
      assert u in t.users;
    }
  }

  lemma DeleteUserKeepsPosts(s: Store, uid: UserId)
    requires PostsWellFormed(s)
    ensures UniqueBy(DeleteUser(s, uid).posts, PostKey)
    ensures NewestFirst(DeleteUser(s, uid).posts, PostDate)
  {
    FilterUnique(s.posts, (p: Post) => p.author != uid, PostKey);
    FilterNewestFirst(s.posts, (p: Post) => p.author != uid, PostDate);
  }

  lemma DeleteUserKeepsComments(s: Store, uid: UserId)
    requires CommentsWellFormed(s)
    ensures UniqueBy(DeleteUser(s, uid).comments, CommentKey)
    ensures NewestFirst(DeleteUser(s, uid).comments, CommentDate)
    ensures forall c :: c in DeleteUser(s, uid).comments ==> c.post in PostIds(DeleteUser(s, uid))
  {
    var t := DeleteUser(s, uid);
    var gone := PostsBy(s, uid);
    FilterUnique(s.comments, (c: Comment) => c.author != uid && c.post !in gone, CommentKey);
    FilterNewestFirst(s.comments, (c: Comment) => c.author != uid && c.post !in gone, CommentDate);
    forall c | c in t.comments ensures c.post in PostIds(t) {
      var q :| q in s.posts && q.id == c.post;
      assert q in t.posts;
    }
  }
}

=== FILE: pagination.dfy ===
/** Cutting an ordered listing into numbered pages of `Limit` items. */
module Pagination {

  /** Items per page. */
  const Limit: nat := 10

  /** The number of pages of a listing of `count` items; an empty listing
      still has its one (empty) first page. */
  function NumPages(count: nat): (n: nat)
    ensures n >= 1
    ensures count == 0 ==> n == 1
    ensures count > 0 ==> (n - 1) * Limit < count <= n * Limit
  {
    if count == 0 then 1 else (count + Limit - 1) / Limit
  }

  /** Page `number` (counting from 1) of `items`. */
  datatype Page<T> = Page(items: seq<T>, number: nat, numPages: nat)

  function Min(a: int, b: int): int { if a <= b then a else b }

  /** The page with the given number, for a number between 1 and the
      number of pages. */
  function GetPage<T>(items: seq<T>, number: nat): (p: Page<T>)
    requires 1 <= number <= NumPages(|items|)
    ensures p.number == number && p.numPages == NumPages(|items|)
    ensures |p.items| <= Limit
    ensures number < p.numPages ==> |p.items| == Limit
    ensures number == p.numPages ==> |p.items| == |items| - (number - 1) * Limit
    ensures forall i :: 0 <= i < |p.items| ==> p.items[i] == items[(number - 1) * Limit + i]
  {
    var lo := (number - 1) * Limit;
    var hi := Min(number * Limit, |items|);
    Page(items[lo..hi], number, NumPages(|items|))
  }

  /** Every item of a listing is on exactly one page: item `i` is at
      position `i % Limit` of page `i / Limit + 1`. */
  lemma ItemOnItsPage<T>(items: seq<T>, i: nat)
    requires i < |items|
    ensures 1 <= i / Limit + 1 <= NumPages(|items|)
    ensures i % Limit < |GetPage(items, i / Limit + 1).items|
    ensures GetPage(items, i / Limit + 1).items[i % Limit] == items[i]
  {
    var k := i / Limit + 1;
    var n := NumPages(|items|);
    assert (k - 1) * Limit <= i < k * Limit;
  }

  /** Read in order, the pages give back the whole listing. */
  lemma {:induction false} PagesCoverListing<T>(items: seq<T>)
    ensures Concat(items, 1) == items
  {
    ConcatFrom(items, 1);
  }

  /** Pages `k`, `k + 1`, … up to the last, concatenated. */
  function Concat<T>(items: seq<T>, k: nat): seq<T>
    requires 1 <= k <= NumPages(|items|)
    decreases NumPages(|items|) - k
  {
    if k == NumPages(|items|) then GetPage(items, k).items
    else GetPage(items, k).items + Concat(items, k + 1)
  }

  lemma {:induction false} ConcatFrom<T>(items: seq<T>, k: nat)
    requires 1 <= k <= NumPages(|items|)
    ensures Concat(items, k) == items[(k - 1) * Limit..]
    decreases NumPages(|items|) - k
  {
    var p := GetPage(items, k).items;
    var lo := (k - 1) * Limit;
    if k == NumPages(|items|) {
      assert p == items[lo..];
    } else {
      assert k * Limit == lo + Limit;
      ConcatFrom(items, k + 1);
      assert p == items[lo..lo + Limit];
      assert items[lo..] == items[lo..lo + Limit] + items[lo + Limit..];
    }
  }

  /** A listing of twelve items has two pages, of ten and two. */
  lemma TwelveItems<T>(items: seq<T>)
    requires |items| == 12
    ensures NumPages(|items|) == 2
    ensures |GetPage(items, 1).items| == 10
    ensures |GetPage(items, 2).items| == 2
  {
  }
}

=== FILE: properties.dfy ===
/** Properties that relate several requests, or a request and the store's
    constraints: the follow graph's laws, the author-only edit rule, the
    server-side assignment of authors, listing order, the on-delete rules,
    and that every handler keeps the database constraints. */
module Properties {
  import opened Collections
  import opened Models
  import opened Forms
  import opened Views
  import opened Pagination

  // ---------------------------------------------------------------------
  // Follow graph

  /** Nobody follows themselves. */
  ghost predicate NoSelfFollows(s: Store) {
    forall f :: f in s.follows ==> f.user != f.author
  }

  /** Following an author already followed changes nothing: a second
      follow request gives the same response and the same store. */
  lemma FollowIsIdempotent(s: Store, viewer: Option<User>, username: string)
    ensures var o := ProfileFollow(s, viewer, username);
            ProfileFollow(o.store, viewer, username) == o
  {
    var o := ProfileFollow(s, viewer, username);
    assert o.store.users == s.users;
    assert UserNamed(o.store, username) == UserNamed(s, username);
  }

  /** Following one's own profile stores no edge. */
  lemma {:induction false} FollowingOneselfStoresNothing(s: Store, viewer: User)
    requires UsersWellFormed(s)
    requires viewer in s.users
    ensures ProfileFollow(s, Some(viewer), viewer.username)
            == Outcome(Redirect(ProfilePage(viewer.username)), s)
  {
    FindByKeyUnique(s.users, UserName, viewer);
  }

  /** Following another author not yet followed adds exactly that edge,
      at the end of the follow table, and nothing else. */
  lemma {:induction false} FollowAddsExactlyThatEdge(s: Store, viewer: User, author: User)
    requires UsersWellFormed(s)
    requires author in s.users
    requires author.id != viewer.id
    requires Follow(viewer.id, author.id) !in s.follows
    ensures ProfileFollow(s, Some(viewer), author.username)
            == Outcome(Redirect(ProfilePage(author.username)),
                       s.(follows := s.follows + [Follow(viewer.id, author.id)]))
  {
    FindByKeyUnique(s.users, UserName, author);
  }

  /** No request to follow ever stores a self-edge. */
  lemma FollowKeepsNoSelfFollows(s: Store, viewer: Option<User>, username: string)
    requires NoSelfFollows(s)
    ensures NoSelfFollows(ProfileFollow(s, viewer, username).store)
  {
  }

  /** Unfollowing right after a first follow restores the store. */
  lemma {:induction false} UnfollowUndoesFollow(s: Store, viewer: User, author: User)
    requires UsersWellFormed(s)
    requires author in s.users
    requires author.id != viewer.id
    requires Follow(viewer.id, author.id) !in s.follows
    ensures var o := ProfileFollow(s, Some(viewer), author.username);
            ProfileUnfollow(o.store, Some(viewer), author.username)
            == Outcome(Redirect(ProfilePage(author.username)), s)
  {
    FindByKeyUnique(s.users, UserName, author);
    var e := Follow(viewer.id, author.id);
    RemoveFollowUndoesInsert(s, e);
  }

  /** Unfollowing removes exactly the author's posts from the feed. */
  lemma FeedAfterUnfollow(s: Store, viewer: User, username: string)
    requires ProfileUnfollow(s, Some(viewer), username).response.Redirect?
    ensures UserNamed(s, username).Some?
    ensures var t := ProfileUnfollow(s, Some(viewer), username).store;
            var a := UserNamed(s, username).value;
            forall p :: p in FollowIndex(t, Some(viewer)).view.posts <==>
              p in FollowIndex(s, Some(viewer)).view.posts && p.author != a.id
  {
  }

  /** After unfollowing the only author one followed, the feed is empty. */
  lemma FeedEmptyAfterUnfollowingOnlyAuthor(s: Store, viewer: User, username: string)
    requires ProfileUnfollow(s, Some(viewer), username).response.Redirect?
    requires UserNamed(s, username).Some?
    requires forall f :: f in s.follows && f.user == viewer.id ==> f.author == UserNamed(s, username).value.id
    ensures FollowIndex(ProfileUnfollow(s, Some(viewer), username).store, Some(viewer)).view.posts == []
  {
    var t := ProfileUnfollow(s, Some(viewer), username).store;
    FilterNone(t.posts, (p: Post) => Follow(viewer.id, p.author) in t.follows);
  }

  /** The unfollow handler as written and as corrected differ on every
      unknown username: the first ends in a server error, the second in
      not-found, and neither changes the store. */
  lemma UnfollowUnknownUsernameAsWritten(s: Store, viewer: User, username: string)
    requires UserNamed(s, username).None?
    ensures ProfileUnfollowAsWritten(s, Some(viewer), username) == Outcome(ServerError, s)
    ensures ProfileUnfollow(s, Some(viewer), username) == Outcome(NotFound, s)
  {
  }

  /** The length of the longest stored username. */
  function MaxNameLength(users: seq<User>): (n: nat)
    ensures forall u :: u in users ==> |u.username| <= n
  {
    if users == [] then 0
    else
      var m := MaxNameLength(users[1..]);
      if |users[0].username| > m then |users[0].username| else m
  }

  /** Every store has such an unknown username: one longer than any stored
      username. */
  lemma UnknownUsernameExists(s: Store)
    ensures exists username :: UserNamed(s, username).None?
  {
    var username := seq(MaxNameLength(s.users) + 1, i => 'x');
    assert UserNamed(s, username).None?;
  }

  // ---------------------------------------------------------------------
  // Listings

  /** A post shown on one group's page is never shown on another's. */
  lemma GroupListingsAreDisjoint(s: Store, slug1: string, slug2: string, p: Post)
    requires GroupsWellFormed(s)
    requires slug1 != slug2
    requires GroupPosts(s, slug1).Rendered? && GroupPosts(s, slug2).Rendered?
    requires p in GroupPosts(s, slug1).view.posts
    ensures p !in GroupPosts(s, slug2).view.posts
  {
    var g1 := GroupPosts(s, slug1).view.group;
    var g2 := GroupPosts(s, slug2).view.group;
    KeyDeterminesElement(s.groups, GroupKey, g1);
    var j :| 0 <= j < |s.groups| && s.groups[j] == g2;
  }

  /** A group with twelve posts is listed on two pages, of ten and two:
      each of its posts is listed once. */
  lemma {:induction false} GroupOfTwelveHasTwoPages(s: Store, gid: GroupId)
    requires UniqueBy(s.posts, PostKey)
    requires |set p | p in s.posts && p.group == Some(gid)| == 12
    ensures |GroupPostList(s, gid)| == 12
    ensures NumPages(|GroupPostList(s, gid)|) == 2
    ensures |GetPage(GroupPostList(s, gid), 1).items| == 10
    ensures |GetPage(GroupPostList(s, gid), 2).items| == 2
  {
    var r := GroupPostList(s, gid);
    UniqueCount(r, PostKey);
    assert (set p | p in r) == (set p | p in s.posts && p.group == Some(gid));
    TwelveItems(r);
  }

  /** An author with twelve posts has a profile of two pages, of ten and
      two. */
  lemma {:induction false} AuthorOfTwelveHasTwoPages(s: Store, uid: UserId)
    requires UniqueBy(s.posts, PostKey)
    requires |set p | p in s.posts && p.author == uid| == 12
    ensures |AuthorPostList(s, uid)| == 12
    ensures NumPages(|AuthorPostList(s, uid)|) == 2
    ensures |GetPage(AuthorPostList(s, uid), 1).items| == 10
    ensures |GetPage(AuthorPostList(s, uid), 2).items| == 2
  {
    var r := AuthorPostList(s, uid);
    UniqueCount(r, PostKey);
    assert (set p | p in r) == (set p | p in s.posts && p.author == uid);
    TwelveItems(r);
  }

  /** Every listing, and a post's comments, are newest first. */
  lemma ListingsAreNewestFirst(s: Store, viewer: Option<User>, slug: string, username: string, postId: PostId)
    requires Valid(s)
    ensures NewestFirst(Index(s).view.posts, PostDate)
    ensures GroupPosts(s, slug).Rendered? ==> NewestFirst(GroupPosts(s, slug).view.posts, PostDate)
    ensures Profile(s, viewer, username).Rendered? ==>
              NewestFirst(Profile(s, viewer, username).view.posts, PostDate)
    ensures viewer.Some? ==> NewestFirst(FollowIndex(s, viewer).view.posts, PostDate)
    ensures PostDetail(s, postId).Rendered? ==>
              && NewestFirst(PostDetail(s, postId).view.comments, CommentDate)
              && NewestFirst(PostDetail(s, postId).view.authorPosts, PostDate)
  {
  }

  // ---------------------------------------------------------------------
  // Creating and editing posts

  /** A valid creation adds exactly one post, new to the store, written by
      the requester, and leaves every stored post in place. */
  lemma CreateAddsOnePostByRequester(s: Store, viewer: User, data: FormData, now: int)
    requires Valid(s)
    requires BindPostForm(data, GroupIds(s), None).Success?
    ensures var o := PostCreate(s, Some(viewer), Submit(data), now);
            var p := NewPost(s, viewer, BindPostForm(data, GroupIds(s), None).value, now);
            && o.response == Redirect(ProfilePage(viewer.username))
            && |o.store.posts| == |s.posts| + 1
            && p !in s.posts && p in o.store.posts
            && p.author == viewer.id
            && (forall q :: q in o.store.posts <==> q in s.posts || q == p)
  {
    var o := PostCreate(s, Some(viewer), Submit(data), now);
    var p := NewPost(s, viewer, BindPostForm(data, GroupIds(s), None).value, now);
    assert |multiset(o.store.posts)| == |multiset(s.posts)| + 1;
    forall q ensures q in o.store.posts <==> q in s.posts || q == p {
      assert q in o.store.posts <==> q in multiset(o.store.posts);
      assert q in s.posts <==> q in multiset(s.posts);
    }
  }

  /** A signed-in visit to the creation page, or a refused submission,
      shows the empty form and saves nothing. */
  lemma CreateFormForSignedIn(s: Store, viewer: User, req: Request, now: int)
    requires req.Get? || BindPostForm(req.data, GroupIds(s), None).Failure?
    ensures PostCreate(s, Some(viewer), req, now) == Outcome(Rendered(PostFormView(false)), s)
  {
  }

  /** The server sets the author: whatever `author` value the request
      carries, creation saves the same post. */
  lemma {:induction false} CreateIgnoresClientAuthor(s: Store, viewer: Option<User>, data: FormData, claimed: FormValue, now: int)
    ensures PostCreate(s, viewer, Submit(data["author" := claimed]), now)
            == PostCreate(s, viewer, Submit(data), now)
  {
    var forged := data["author" := claimed];
    PostFormIgnoresAuthor(data, claimed, GroupIds(s), None);
    var r := BindPostForm(data, GroupIds(s), None);
    if viewer.Some? && r.Success? {
      var o := Outcome(Redirect(ProfilePage(viewer.value.username)), InsertPost(s, NewPost(s, viewer.value, r.value, now)));
      assert PostCreate(s, viewer, Submit(forged), now) == o;
      assert PostCreate(s, viewer, Submit(data), now) == o;
    }
  }

  /** The edit handler compares usernames; since usernames and ids are both
      unique, that is the same as asking whether the requester wrote the
      post. */
  lemma {:induction false} UsernameCheckIsAuthorCheck(s: Store, viewer: User, post: Post)
    requires UsersWellFormed(s)
    requires viewer in s.users
    requires post.author in UserIds(s)
    ensures (UserWithId(s, post.author).Some? && UserWithId(s, post.author).value.username == viewer.username)
            <==> viewer.id == post.author
  {
    var a := UserWithId(s, post.author).value;
    KeyDeterminesElement(s.users, UserName, viewer);
    var j :| 0 <= j < |s.users| && s.users[j] == a;
    assert UserName(s.users[j]) == UserName(viewer) ==> s.users[j] == viewer;
    if viewer.id == post.author {
      FindByKeyUnique(s.users, UserKey, viewer);
    }
  }

  /** Anyone but the author is sent to the post, and nothing changes. */
  lemma {:induction false} EditByOtherUserChangesNothing(s: Store, viewer: User, post: Post, req: Request)
    requires Valid(s)
    requires viewer in s.users
    requires post in s.posts
    requires post.author != viewer.id
    ensures PostEdit(s, Some(viewer), post.id, req) == Outcome(Redirect(PostDetailPage(post.id)), s)
  {
    FindByKeyUnique(s.posts, PostKey, post);
    UsernameCheckIsAuthorCheck(s, viewer, post);
  }

  /** The author's visit to the edit page, or the author's refused
      submission, shows the edit form and saves nothing. */
  lemma {:induction false} EditFormForAuthor(s: Store, viewer: User, post: Post, req: Request)
    requires Valid(s)
    requires viewer in s.users
    requires post in s.posts
    requires post.author == viewer.id
    requires req.Get? || BindPostForm(req.data, GroupIds(s), post.image).Failure?
    ensures PostEdit(s, Some(viewer), post.id, req) == Outcome(Rendered(PostFormView(true)), s)
  {
    FindByKeyUnique(s.posts, PostKey, post);
    UsernameCheckIsAuthorCheck(s, viewer, post);
  }

  /** The author's valid edit replaces that post's text, group and image,
      keeps the number of posts, and keeps every other post. */
  lemma {:induction false} EditByAuthor(s: Store, viewer: User, post: Post, data: FormData)
    requires Valid(s)
    requires viewer in s.users
    requires post in s.posts
    requires post.author == viewer.id
    requires BindPostForm(data, GroupIds(s), post.image).Success?
    ensures var input := BindPostForm(data, GroupIds(s), post.image).value;
            var o := PostEdit(s, Some(viewer), post.id, Submit(data));
            && o.response == Redirect(PostDetailPage(post.id))
            && |o.store.posts| == |s.posts|
            && post.(text := input.text, group := input.group, image := input.image) in o.store.posts
            && (forall q :: q in s.posts && q.id != post.id ==> q in o.store.posts)
  {
    FindByKeyUnique(s.posts, PostKey, post);
    UsernameCheckIsAuthorCheck(s, viewer, post);
    var input := BindPostForm(data, GroupIds(s), post.image).value;
    var edited := post.(text := input.text, group := input.group, image := input.image);
    assert PostEdit(s, Some(viewer), post.id, Submit(data))
           == Outcome(Redirect(PostDetailPage(post.id)), UpdatePost(s, edited));
    UpdatePostKeepsRows(s, post, edited);
  }

  // ---------------------------------------------------------------------
  // Reading a post and commenting on it

  /** In a valid store every stored post has its page, showing that post
      and its author. */
  lemma {:induction false} PostDetailRenders(s: Store, post: Post)
    requires Valid(s)
    requires post in s.posts
    ensures PostDetail(s, post.id).Rendered?
    ensures PostDetail(s, post.id).view.post == post
  {
    FindByKeyUnique(s.posts, PostKey, post);
    var a :| a in s.users && a.id == post.author;
    FindByKeyUnique(s.users, UserKey, a);
  }

  /** A signed-in user's valid comment on a stored post is saved: the
      store gains exactly the comment on that post, written by the
      requester and dated `now`, and the requester goes back to the post. */
  lemma {:induction false} AddCommentSaves(s: Store, viewer: User, post: Post, data: FormData, now: int)
    requires UniqueBy(s.posts, PostKey)
    requires post in s.posts
    requires BindCommentForm(data).Success?
    ensures AddComment(s, Some(viewer), post.id, Submit(data), now)
            == Outcome(Redirect(PostDetailPage(post.id)),
                       InsertComment(s, Comment(s.nextCommentId, post.id, BindCommentForm(data).value, now, viewer.id)))
  {
    FindByKeyUnique(s.posts, PostKey, post);
  }

  /** An invalid comment, or a plain visit, saves nothing and still goes
      back to the post. */
  lemma {:induction false} AddCommentInvalidSavesNothing(s: Store, viewer: User, post: Post, req: Request, now: int)
    requires post in s.posts
    requires req.Get? || BindCommentForm(req.data).Failure?
    ensures AddComment(s, Some(viewer), post.id, req, now) == Outcome(Redirect(PostDetailPage(post.id)), s)
  {
  }

  // ---------------------------------------------------------------------
  // On-delete rules, seen through the pages

  /** After a group is deleted its page is gone, and each of its posts is
      still listed on the home page, with no group. */
  lemma {:induction false} DeletedGroupPostsStayListed(s: Store, g: Group)
    requires GroupsWellFormed(s)
    requires g in s.groups
    ensures var t := DeleteGroup(s, g.id);
            && GroupPosts(t, g.slug).NotFound?
            && |Index(t).view.posts| == |Index(s).view.posts|
            && (forall p :: p in s.posts && p.group == Some(g.id) ==> p.(group := None) in Index(t).view.posts)
            && (forall p :: p in s.posts && p.group != Some(g.id) ==> p in Index(t).view.posts)
  {
    var t := DeleteGroup(s, g.id);
    KeyDeterminesElement(s.groups, GroupSlug, g);
    forall h | h in t.groups ensures h.slug != g.slug {
      var j :| 0 <= j < |s.groups| && s.groups[j] == h;
    }
    forall p | p in s.posts
      ensures p.group == Some(g.id) ==> p.(group := None) in t.posts
      ensures p.group != Some(g.id) ==> p in t.posts
    {
      var i :| 0 <= i < |s.posts| && s.posts[i] == p;
      assert t.posts[i].(group := None) == p.(group := None);
      if p.group == Some(g.id) {
        assert t.posts[i] == p.(group := None);
      }
    }
  }

  /** After a post is deleted its page is gone and none of its comments is
      left; the comments on every other post are untouched. */
  lemma DeletedPostLeavesNoComments(s: Store, pid: PostId, other: PostId)
    requires other != pid
    ensures PostDetail(DeletePost(s, pid), pid).NotFound?
    ensures forall c :: c in DeletePost(s, pid).comments ==> c.post != pid
    ensures forall c :: c in PostCommentList(DeletePost(s, pid), other) <==> c in PostCommentList(s, other)
  {
  }

  // ---------------------------------------------------------------------
  // Every handler keeps the database constraints

  lemma ValidAfterPostCreate(s: Store, viewer: Option<User>, req: Request, now: int)
    requires Valid(s) && SessionValid(s, viewer)
    ensures Valid(PostCreate(s, viewer, req, now).store)
  {
    var o := PostCreate(s, viewer, req, now);
    if o.response.Redirect? {
      var p := NewPost(s, viewer.value, BindPostForm(req.data, GroupIds(s), None).value, now);
      ValidInsertPost(s, p);
    }
  }

  lemma ValidAfterPostEdit(s: Store, viewer: Option<User>, postId: PostId, req: Request)
    requires Valid(s) && SessionValid(s, viewer)
    ensures Valid(PostEdit(s, viewer, postId, req).store)
  {
    var o := PostEdit(s, viewer, postId, req);
    if o.store != s {
      var post := PostWithId(s, postId).value;
      var input := BindPostForm(req.data, GroupIds(s), post.image).value;
      ValidUpdatePost(s, post, post.(text := input.text, group := input.group, image := input.image));
    }
  }

  lemma ValidAfterAddComment(s: Store, viewer: Option<User>, postId: PostId, req: Request, now: int)
    requires Valid(s) && SessionValid(s, viewer)
    ensures Valid(AddComment(s, viewer, postId, req, now).store)
  {
    var o := AddComment(s, viewer, postId, req, now);
    if o.store != s {
      var post := PostWithId(s, postId).value;
      ValidInsertComment(s, Comment(s.nextCommentId, post.id, BindCommentForm(req.data).value, now, viewer.value.id));
    }
  }

  lemma ValidAfterFollow(s: Store, viewer: Option<User>, username: string)
    requires Valid(s) && SessionValid(s, viewer)
    ensures Valid(ProfileFollow(s, viewer, username).store)
  {
    var o := ProfileFollow(s, viewer, username);
    if o.store != s {
      ValidInsertFollow(s, Follow(viewer.value.id, UserNamed(s, username).value.id));
    }
  }

  lemma ValidAfterUnfollow(s: Store, viewer: Option<User>, username: string)
    requires Valid(s)
    ensures Valid(ProfileUnfollow(s, viewer, username).store)
  {
    var o := ProfileUnfollow(s, viewer, username);
    if o.store != s {
      ValidRemoveFollow(s, Follow(viewer.value.id, UserNamed(s, username).value.id));
    }
  }

  // ---------------------------------------------------------------------
  // A worked session

  /** Text a form saves unchanged: not blank at either end, no NUL. */
  predicate Trimmed(t: string) {
    t != [] && !IsSpace(t[0]) && !IsSpace(t[|t| - 1]) && '\0' !in t
  }

  /** A posts `text`; its page shows that text, author A and no comments.
      B comments `reply`; the page then shows exactly that one comment. */
  lemma {:induction false} HelloScenario(text: string, reply: string)
    requires Trimmed(text) && Trimmed(reply)
    ensures var a := User(1, "A");
            var b := User(2, "B");
            var s0 := Store([a, b], [], [], [], [], 0, 0);
            var o1 := PostCreate(s0, Some(a), Submit(map["text" := TextValue(text)]), 100);
            var d1 := PostDetail(o1.store, 0);
            var o2 := AddComment(o1.store, Some(b), 0, Submit(map["text" := TextValue(reply)]), 101);
            var d2 := PostDetail(o2.store, 0);
            && o1.response == Redirect(ProfilePage("A"))
            && d1.Rendered? && d1.view.post.text == text && d1.view.author == a
            && d1.view.comments == []
            && o2.response == Redirect(PostDetailPage(0))
            && d2.Rendered? && d2.view.comments == [Comment(0, 0, reply, 101, b.id)]
  {
    var a := User(1, "A");
    var b := User(2, "B");
    var s0 := Store([a, b], [], [], [], [], 0, 0);
    var post := map["text" := TextValue(text)];
    var comment := map["text" := TextValue(reply)];
    TrimmedTextIsKept(text);
    TrimmedTextIsKept(reply);
    assert GroupIds(s0) == {};
    assert BindPostForm(post, {}, None) == Success(PostInput(text, None, None));
    var p := Post(0, text, 100, 1, None, None);
    var s1 := s0.(posts := [p], nextPostId := 1);
    assert PostCreate(s0, Some(a), Submit(post), 100) == Outcome(Redirect(ProfilePage("A")), s1);
    assert BindCommentForm(comment) == Success(reply);
    var c := Comment(0, 0, reply, 101, b.id);
    assert AddComment(s1, Some(b), 0, Submit(comment), 101)
           == Outcome(Redirect(PostDetailPage(0)), s1.(comments := [c], nextCommentId := 1));
  }

  /** Text with no whitespace at its ends is cleaned to itself. */
  lemma {:induction false} TrimmedTextIsKept(t: string)
    requires Trimmed(t)
    ensures Strip(t) == t
  {
    StripRemovesPadding([], t, []);
    assert [] + t + [] == t;
  }

  /** A submission of trimmed text alone binds to that text, with no group
      and the image left as it was. */
  lemma {:induction false} PlainTextBinds(t: string, groups: set<GroupId>, initial: Option<ImageRef>)
    requires Trimmed(t)
    ensures BindPostForm(map["text" := TextValue(t)], groups, initial) == Success(PostInput(t, None, initial))
    ensures BindCommentForm(map["text" := TextValue(t)]) == Success(t)
  {
    TrimmedTextIsKept(t);
  }
}

=== FILE: views.dfy ===
/** The request handlers of the posts app, as functions from the store (and
    the request) to a response and the store after the request. Rendering,
    routing and the login framework are outside the model: a response says
    which page is shown with which data, or where the browser is sent. */
module Views {
  import opened Collections
  import opened Models
  import opened Forms

  /** Where a redirect points. */
  datatype Location = ProfilePage(username: string) | PostDetailPage(postId: PostId)

  /** The data a rendered page is given. Listings hold the full ordered
      post list that the page is cut from (see `Pagination.GetPage`). */
  datatype View =
    | IndexView(posts: seq<Post>)
    | GroupView(group: Group, posts: seq<Post>)
    | ProfileView(author: User, posts: seq<Post>, following: bool)
    | DetailView(post: Post, author: User, authorPosts: seq<Post>, comments: seq<Comment>)
    | FeedView(posts: seq<Post>)
    | PostFormView(isEdit: bool)

  datatype Response =
    | Rendered(view: View)
    | Redirect(location: Location)
    | LoginRedirect  // sent to the login page, with a return path
    | NotFound       // a 404 page
    | ServerError    // an uncaught exception: a 500 page

  /** A handler's response and the store after it. */
  datatype Outcome = Outcome(response: Response, store: Store)

  /** A read of the page, or a form submission with its data. */
  datatype Request = Get | Submit(data: FormData)

  /** An authenticated session belongs to a stored user; `None` is an
      anonymous visitor. */
  ghost predicate SessionValid(s: Store, viewer: Option<User>) {
    viewer.Some? ==> viewer.value in s.users
  }

  // ---------------------------------------------------------------------
  // Lookups (`get_object_or_404` and friends)

  function UserNamed(s: Store, username: string): (r: Option<User>)
    ensures r.Some? ==> r.value in s.users && r.value.username == username
    ensures r.None? <==> forall u :: u in s.users ==> u.username != username
  {
    FindByKey(s.users, UserName, username)
  }

  function UserWithId(s: Store, id: UserId): (r: Option<User>)
    ensures r.Some? ==> r.value in s.users && r.value.id == id
    ensures r.None? <==> forall u :: u in s.users ==> u.id != id
  {
    FindByKey(s.users, UserKey, id)
  }

  function GroupWithSlug(s: Store, slug: string): (r: Option<Group>)
    ensures r.Some? ==> r.value in s.groups && r.value.slug == slug
    ensures r.None? <==> forall g :: g in s.groups ==> g.slug != slug
  {
    FindByKey(s.groups, GroupSlug, slug)
  }

  function PostWithId(s: Store, id: PostId): (r: Option<Post>)
    ensures r.Some? ==> r.value in s.posts && r.value.id == id
    ensures r.None? <==> forall p :: p in s.posts ==> p.id != id
  {
    FindByKey(s.posts, PostKey, id)
  }

  // ---------------------------------------------------------------------
  // Listings: filters over the newest-first post table

  /** The posts of one group. */
  function GroupPostList(s: Store, gid: GroupId): (r: seq<Post>)
    ensures forall p :: p in r <==> p in s.posts && p.group == Some(gid)
    ensures NewestFirst(s.posts, PostDate) ==> NewestFirst(r, PostDate)
    ensures UniqueBy(s.posts, PostKey) ==> UniqueBy(r, PostKey)
  {
    var keep := (p: Post) => p.group == Some(gid);
    FilterKeepsUnique(s.posts, keep, PostKey);
    FilterKeepsOrder(s.posts, keep, PostDate);
    Filter(s.posts, keep)
  }

  /** The posts of one author. */
  function AuthorPostList(s: Store, uid: UserId): (r: seq<Post>)
    ensures forall p :: p in r <==> p in s.posts && p.author == uid
    ensures NewestFirst(s.posts, PostDate) ==> NewestFirst(r, PostDate)
    ensures UniqueBy(s.posts, PostKey) ==> UniqueBy(r, PostKey)
  {
    var keep := (p: Post) => p.author == uid;
    FilterKeepsUnique(s.posts, keep, PostKey);
    FilterKeepsOrder(s.posts, keep, PostDate);
    Filter(s.posts, keep)
  }

  /** The feed of `uid`: the posts of every author they follow. */
  function FeedPostList(s: Store, uid: UserId): (r: seq<Post>)
    ensures forall p :: p in r <==> p in s.posts && Follow(uid, p.author) in s.follows
    ensures NewestFirst(s.posts, PostDate) ==> NewestFirst(r, PostDate)
    ensures UniqueBy(s.posts, PostKey) ==> UniqueBy(r, PostKey)
  {
    var keep := (p: Post) => Follow(uid, p.author) in s.follows;
    FilterKeepsUnique(s.posts, keep, PostKey);
    FilterKeepsOrder(s.posts, keep, PostDate);
    Filter(s.posts, keep)
  }

  /** The comments on one post. */
  function PostCommentList(s: Store, pid: PostId): (r: seq<Comment>)
    ensures forall c :: c in r <==> c in s.comments && c.post == pid
    ensures NewestFirst(s.comments, CommentDate) ==> NewestFirst(r, CommentDate)
    ensures UniqueBy(s.comments, CommentKey) ==> UniqueBy(r, CommentKey)
  {
    var keep := (c: Comment) => c.post == pid;
    FilterKeepsUnique(s.comments, keep, CommentKey);
    FilterKeepsOrder(s.comments, keep, CommentDate);
    Filter(s.comments, keep)
  }

  // ---------------------------------------------------------------------
  // Pages that only read

  /** The home page lists every post. */
  function Index(s: Store): (r: Response)
    ensures r.Rendered? && r.view.IndexView?
    ensures forall p :: p in r.view.posts <==> p in s.posts
    ensures |r.view.posts| == |s.posts|
  {
    Rendered(IndexView(s.posts))
  }

  /** A group's page lists exactly the posts of that group; an unknown slug
      is not found. */
  function GroupPosts(s: Store, slug: string): (r: Response)
    ensures r.NotFound? <==> forall g :: g in s.groups ==> g.slug != slug
    ensures !r.NotFound? ==> r.Rendered? && r.view.GroupView?
    ensures r.Rendered? ==> r.view.group in s.groups && r.view.group.slug == slug
    ensures r.Rendered? ==> forall p :: p in r.view.posts <==>
              p in s.posts && p.group == Some(r.view.group.id)
  {
    match GroupWithSlug(s, slug)
    case None => NotFound
    case Some(g) => Rendered(GroupView(g, GroupPostList(s, g.id)))
  }

  /** A profile lists exactly the author's posts, and shows the viewer as
      following the author exactly when that edge is stored; an unknown
      username is not found. Anonymous visitors may look. */
  function Profile(s: Store, viewer: Option<User>, username: string): (r: Response)
    ensures r.NotFound? <==> forall u :: u in s.users ==> u.username != username
    ensures !r.NotFound? ==> r.Rendered? && r.view.ProfileView?
    ensures r.Rendered? ==> r.view.author in s.users && r.view.author.username == username
    ensures r.Rendered? ==> forall p :: p in r.view.posts <==>
              p in s.posts && p.author == r.view.author.id
    ensures r.Rendered? ==> (r.view.following <==>
              viewer.Some? && Follow(viewer.value.id, r.view.author.id) in s.follows)
  {
    match UserNamed(s, username)
    case None => NotFound
    case Some(author) =>
      var following := viewer.Some? && Follow(viewer.value.id, author.id) in s.follows;
      Rendered(ProfileView(author, AuthorPostList(s, author.id), following))
  }

  /** A post's page shows the post, its author, the author's posts and
      exactly the comments on the post. */
  function PostDetail(s: Store, postId: PostId): (r: Response)
    ensures r.Rendered? || r.NotFound?
    ensures (forall p :: p in s.posts ==> p.id != postId) ==> r.NotFound?
    ensures r.Rendered? ==> r.view.DetailView?
    ensures r.Rendered? ==> r.view.post in s.posts && r.view.post.id == postId
    ensures r.Rendered? ==> r.view.author in s.users && r.view.author.id == r.view.post.author
    ensures r.Rendered? ==> forall p :: p in r.view.authorPosts <==>
              p in s.posts && p.author == r.view.post.author
    ensures r.Rendered? ==> forall c :: c in r.view.comments <==>
              c in s.comments && c.post == postId
  {
    match PostWithId(s, postId)
    case None => NotFound
    case Some(post) =>
      match UserWithId(s, post.author)
      case None => NotFound
      case Some(author) =>
        Rendered(DetailView(post, author, AuthorPostList(s, author.id), PostCommentList(s, post.id)))
  }

  /** The personal feed: exactly the posts whose author the viewer follows.
      Login required. */
  function FollowIndex(s: Store, viewer: Option<User>): (r: Response)
    ensures viewer.None? <==> r.LoginRedirect?
    ensures viewer.Some? ==> r.Rendered? && r.view.FeedView?
    ensures viewer.Some? ==> forall p :: p in r.view.posts <==>
              p in s.posts && Follow(viewer.value.id, p.author) in s.follows
  {
    if viewer.None? then LoginRedirect
    else Rendered(FeedView(FeedPostList(s, viewer.value.id)))
  }

  // ---------------------------------------------------------------------
  // Pages that write

  /** The post a valid creation submission saves. */
  function NewPost(s: Store, author: User, input: PostInput, now: int): Post {
    Post(s.nextPostId, input.text, now, author.id, input.group, input.image)
  }

  /** Creating a post (login required). A valid submission saves one post
      written by the requester, dated `now`, and redirects to the
      requester's profile; anything else shows the form and saves nothing. */
  function PostCreate(s: Store, viewer: Option<User>, req: Request, now: int): (o: Outcome)
    ensures viewer.None? ==> o == Outcome(LoginRedirect, s)
    ensures viewer.Some? ==> o.response.Redirect? || o.response == Rendered(PostFormView(false))
    ensures !o.response.Redirect? ==> o.store == s
    ensures o.response.Redirect? ==>
              && viewer.Some? && req.Submit?
              && BindPostForm(req.data, GroupIds(s), None).Success?
              && o.response.location == ProfilePage(viewer.value.username)
    ensures o.response.Redirect? ==>
              var p := NewPost(s, viewer.value, BindPostForm(req.data, GroupIds(s), None).value, now);
              && p.author == viewer.value.id
              && p.pubDate == now
              && multiset(o.store.posts) == multiset(s.posts) + multiset{p}
              && o.store == s.(posts := o.store.posts, nextPostId := o.store.nextPostId)
  {
    if viewer.None? then Outcome(LoginRedirect, s)
    else if req.Get? then Outcome(Rendered(PostFormView(false)), s)
    else
      match BindPostForm(req.data, GroupIds(s), None)
      case Failure(_) => Outcome(Rendered(PostFormView(false)), s)
      case Success(input) =>
        var p := NewPost(s, viewer.value, input, now);
        Outcome(Redirect(ProfilePage(viewer.value.username)), InsertPost(s, p))
  }

  /** Editing a post (login required). The requester's username is compared
      with the author's: anyone else is redirected to the post with nothing
      changed. The author's valid submission replaces the post's text, group
      and image and redirects to the post; otherwise the form is shown. No
      post other than `postId` changes, and no post's id, author or date. */
  function PostEdit(s: Store, viewer: Option<User>, postId: PostId, req: Request): (o: Outcome)
    ensures viewer.None? ==> o == Outcome(LoginRedirect, s)
    ensures viewer.Some? && (forall p :: p in s.posts ==> p.id != postId) ==> o == Outcome(NotFound, s)
    ensures o.store == s.(posts := o.store.posts)
    ensures |o.store.posts| == |s.posts|
    ensures forall i :: 0 <= i < |s.posts| && s.posts[i].id != postId ==> o.store.posts[i] == s.posts[i]
    ensures UniqueBy(s.posts, PostKey) ==> forall i :: 0 <= i < |s.posts| ==>
              && o.store.posts[i].id == s.posts[i].id
              && o.store.posts[i].author == s.posts[i].author
              && o.store.posts[i].pubDate == s.posts[i].pubDate
    ensures o.store != s ==>
              && viewer.Some? && req.Submit?
              && o.response == Redirect(PostDetailPage(postId))
              && UserWithId(s, PostWithId(s, postId).value.author).Some?
              && UserWithId(s, PostWithId(s, postId).value.author).value.username == viewer.value.username
  {
    if viewer.None? then Outcome(LoginRedirect, s)
    else
      match PostWithId(s, postId)
      case None => Outcome(NotFound, s)
      case Some(post) =>
        match UserWithId(s, post.author)
        case None => Outcome(NotFound, s)
        case Some(author) =>
          if viewer.value.username != author.username then
            Outcome(Redirect(PostDetailPage(postId)), s)
          else if req.Get? then Outcome(Rendered(PostFormView(true)), s)
          else
            match BindPostForm(req.data, GroupIds(s), post.image)
            case Failure(_) => Outcome(Rendered(PostFormView(true)), s)
            case Success(input) =>
              var edited := post.(text := input.text, group := input.group, image := input.image);
              KeyDeterminesElement(s.posts, PostKey, post);
              Outcome(Redirect(PostDetailPage(postId)), UpdatePost(s, edited))
  }

  /** Commenting on a post (login required). An existing post always
      redirects to its page; a valid submission first saves one comment on
      that post, written by the requester and dated `now`. */
  function AddComment(s: Store, viewer: Option<User>, postId: PostId, req: Request, now: int): (o: Outcome)
    ensures viewer.None? ==> o == Outcome(LoginRedirect, s)
    ensures viewer.Some? && (forall p :: p in s.posts ==> p.id != postId) ==> o == Outcome(NotFound, s)
    ensures viewer.Some? && (exists p :: p in s.posts && p.id == postId) ==>
              o.response == Redirect(PostDetailPage(postId))
    ensures o.store != s ==>
              && viewer.Some? && req.Submit? && BindCommentForm(req.data).Success?
              && var c := Comment(s.nextCommentId, postId, BindCommentForm(req.data).value, now, viewer.value.id);
                 && multiset(o.store.comments) == multiset(s.comments) + multiset{c}
                 && o.store == s.(comments := o.store.comments, nextCommentId := o.store.nextCommentId)
  {
    if viewer.None? then Outcome(LoginRedirect, s)
    else
      match PostWithId(s, postId)
      case None => Outcome(NotFound, s)
      case Some(post) =>
        if req.Get? then Outcome(Redirect(PostDetailPage(postId)), s)
        else
          match BindCommentForm(req.data)
          case Failure(_) => Outcome(Redirect(PostDetailPage(postId)), s)
          case Success(text) =>
            var c := Comment(s.nextCommentId, post.id, text, now, viewer.value.id);
            Outcome(Redirect(PostDetailPage(postId)), InsertComment(s, c))
  }

  /** Following an author (login required). An existing edge is left as it
      is; following oneself stores nothing; otherwise exactly the edge
      (viewer, author) is added. Every outcome but login and not-found
      redirects to the author's profile. */
  function ProfileFollow(s: Store, viewer: Option<User>, username: string): (o: Outcome)
    ensures viewer.None? ==> o == Outcome(LoginRedirect, s)
    ensures viewer.Some? && UserNamed(s, username).None? ==> o == Outcome(NotFound, s)
    ensures viewer.Some? && UserNamed(s, username).Some? ==>
              o.response == Redirect(ProfilePage(username))
    ensures o.store == s.(follows := o.store.follows)
    ensures forall f :: f in s.follows ==> f in o.store.follows
    ensures o.store != s ==>
              && viewer.Some? && UserNamed(s, username).Some?
              && var e := Follow(viewer.value.id, UserNamed(s, username).value.id);
                 && e.user != e.author
                 && e !in s.follows
                 && o.store.follows == s.follows + [e]
  {
    if viewer.None? then Outcome(LoginRedirect, s)
    else
      match UserNamed(s, username)
      case None => Outcome(NotFound, s)
      case Some(author) =>
        var e := Follow(viewer.value.id, author.id);
        if e in s.follows then Outcome(Redirect(ProfilePage(author.username)), s)
        else if author.id != viewer.value.id then
          Outcome(Redirect(ProfilePage(author.username)), InsertFollow(s, e))
        else Outcome(Redirect(ProfilePage(author.username)), s)
  }

  /** Unfollowing an author (login required). A stored edge (viewer,
      author) is removed and the viewer is sent to the profile; with no such
      edge, or no such user, the answer is not-found and nothing changes. */
  function ProfileUnfollow(s: Store, viewer: Option<User>, username: string): (o: Outcome)
    ensures viewer.None? ==> o == Outcome(LoginRedirect, s)
    ensures o.response.Redirect? || o.response.NotFound? || o.response.LoginRedirect?
    ensures !o.response.Redirect? ==> o.store == s
    ensures viewer.Some? && UserNamed(s, username).None? ==> o.response.NotFound?
    ensures viewer.Some? && UserNamed(s, username).Some? ==>
              var e := Follow(viewer.value.id, UserNamed(s, username).value.id);
              && (o.response.NotFound? <==> e !in s.follows)
              && (o.response.Redirect? ==> o.response.location == ProfilePage(username))
              && (forall f :: f in o.store.follows <==> f in s.follows && f != e)
    ensures o.store == s.(follows := o.store.follows)
  {
    if viewer.None? then Outcome(LoginRedirect, s)
    else
      match UserNamed(s, username)
      case None => Outcome(NotFound, s)
      case Some(author) =>
        var e := Follow(viewer.value.id, author.id);
        if e !in s.follows then Outcome(NotFound, s)
        else Outcome(Redirect(ProfilePage(author.username)), RemoveFollow(s, e))
  }

  /** Unfollowing as the handler is written: the author is looked up with a
      plain `get`, which raises for an unknown username, so that request
      ends in a server error instead of not-found. */
  function ProfileUnfollowAsWritten(s: Store, viewer: Option<User>, username: string): (o: Outcome)
    ensures viewer.None? ==> o == Outcome(LoginRedirect, s)
    ensures viewer.Some? && UserNamed(s, username).None? ==> o == Outcome(ServerError, s)
    ensures UserNamed(s, username).Some? ==> o == ProfileUnfollow(s, viewer, username)
  {
    if viewer.None? then Outcome(LoginRedirect, s)
    else
      match UserNamed(s, username)
      case None => Outcome(ServerError, s)
      case Some(author) =>
        var e := Follow(viewer.value.id, author.id);
        if e !in s.follows then Outcome(NotFound, s)
        else Outcome(Redirect(ProfilePage(author.username)), RemoveFollow(s, e))
  }
}
